=== FILE: README.md ===
# Equipment maintenance register — a Dafny model

The program is a small Flask application (`app.py`) that keeps a register of
equipment (`equipamentos`) and of its maintenance history (`historico`) in
SQLite, and prints a QR code that links to each item's history page. This
project models its core as pure functions over immutable data:

- `converter_data`: the `DD/MM/YYYY` to `YYYY-MM-DD` conversion built on
  `datetime.strptime(..., "%d/%m/%Y").strftime("%Y-%m-%d")`. CPython's
  `%d`, `%m` and `%Y` grammar and the proleptic Gregorian calendar (month
  lengths of section 5.7 of RFC 3339, leap years of its Appendix C, years
  1..9999) are written out (modules `Decimal`, `Calendar`, `DateText`).
- The two tables: rows in rowid order, an `AUTOINCREMENT` counter per table,
  the `UNIQUE` constraint on `patrimonio`, and an unenforced foreign key from
  `historico.equipamento_id` (module `Store`).
- The listing search: Python's `str.lower()` on the term, then SQLite's
  `LOWER(col) LIKE '%term%'` on tag, name and model (modules `SqlText`,
  `Search`).
- The five views as store-in / reply-out functions: register, list, the
  history form, history submission and history page, and the QR page
  (module `Handlers`). The QR link and file name are in module `QrCode`.
- `init_db` as a migration over the column-name sets of each table
  (module `Schema`).

Two behaviours of the code differ from what its comments and route names
suggest, and the model follows the code:
- The search is not a plain case-insensitive substring search.
  - The term is lowered by Python, which folds Latin-1 capitals.
  - The columns are lowered by SQLite, which folds ASCII only.
  - `%` and `_` in the term act as `LIKE` wildcards.
- `Search.ListingIsSubstringSearch` proves the two searches agree whenever
  the term has no wildcard and the row text has no Latin-1 capital.
- `Search.UnderscoreTermListsUnrelatedRow` and
  `Search.AccentedNameNotFoundByItself` exhibit rows on which they differ.
- The date grammar is CPython's. A space-padded day (`" 5/03/2024"`) is
  accepted.

The route converter `<int:equip_id>` accepts any non-negative integer, but
`sqlite3` cannot bind one above 2^63 - 1: the lookup raises `OverflowError`
and the view answers 500. The three views that look an id up model this.
Likewise SQLite refuses a `LIKE` pattern longer than 50,000 bytes (its
default `SQLITE_MAX_LIKE_PATTERN_LENGTH`), so a very long search term on a
non-empty table makes the listing answer 500.

## Model

| member | source | states |
|---|---|---|
| `Calendar.DaysInMonth` | app.py:60 | month lengths 28..31: 31 exactly for the long months, 30 exactly for April, June, September and November, 29 exactly for February of a leap year, 28 exactly for February of a common year |
| `Calendar.IsLeapYear` | app.py:60 | the Gregorian leap-year rule `datetime` uses |
| `Calendar.LeapYearExamples` | app.py:60 | 2000 and 2024 are leap years; 1900, 2023 and 2100 are not |
| `Calendar.ValidDate` | app.py:60 | the dates `datetime.date` constructs without `ValueError` |
| `Calendar.LeapDayValid` | app.py:60 | 29 February is a valid date exactly in leap years |
| `Calendar.ValidDateBounds` | app.py:60 | valid dates have day 1..31 and month 1..12; no date outside years 1..9999 is valid; days 1..28 of any month of those years are |
| `Decimal.DecimalValue` | app.py:60 | the value of a digit string is below 10 to the power of its length |
| `Decimal.PadDigits` | app.py:60 | zero-padded rendering has exactly the requested width and only digits |
| `Decimal.PadDigitsValue` | app.py:60 | reading a zero-padded rendering gives the number back |
| `Decimal.PadDigitsOfValue` | app.py:60 | re-padding a digit string's value to its length gives the string back |
| `Decimal.NatToDecimal` | app.py:172 | `str(n)` is a canonical decimal (no leading zero) whose value is `n` |
| `Decimal.ParseCanonical` | app.py:172 | a canonical text is always read back, and what is read renders to the same text |
| `Decimal.CanonicalRoundTrip` | app.py:172 | rendering a canonical text's value gives that text |
| `Decimal.NatToDecimalInjective` | app.py:172 | distinct ids have distinct decimal texts |
| `DateText.ScanDay` | app.py:60 | `%d` yields a day in 1..31 |
| `DateText.ScanMonth` | app.py:60 | `%m` yields a month in 1..12 |
| `DateText.ParseDdMmYyyy` | app.py:60 | `strptime` succeeds only with a date `datetime` can construct |
| `DateText.IsoDate` | app.py:60 | `strftime("%Y-%m-%d")` has the `YYYY-MM-DD` shape |
| `DateText.IsoDateFields` | app.py:60 | the three fields of the ISO text read back as year, month and day |
| `DateText.ParseIsoDate` | app.py:60 | an accepted ISO text names a valid date and is exactly that date's rendering |
| `DateText.IsoRoundTrip` | app.py:60 | every valid date's ISO text reads back to the date |
| `DateText.ConvertDate` | app.py:58-62 | a success has the `YYYY-MM-DD` shape and names the date the input names |
| `DateText.ScanDaySound` | app.py:60 | whatever `%d` consumes is a spelling of its value (padded, bare or space-padded) |
| `DateText.ScanMonthSound` | app.py:60 | whatever `%m` consumes is a spelling of its value (padded or bare) |
| `DateText.ScanDayComplete` | app.py:60 | every spelling of a day followed by `/` is consumed by `%d` with that value |
| `DateText.ScanMonthComplete` | app.py:60 | every spelling of a month followed by `/` is consumed by `%m` with that value |
| `DateText.ParseComplete` | app.py:60 | every spelling of every valid date parses to that date |
| `DateText.ParseSound` | app.py:60 | every parsed text is a spelling of the date it yields |
| `DateText.ConvertDateAcceptsExactlyDates` | app.py:58-62 | a text converts if and only if it spells a valid date in `%d/%m/%Y` |
| `DateText.ConvertDateKeepsTheDate` | app.py:60 | converting a spelling of a date gives that date's ISO text, which reads back to it |
| `DateText.IsoToDdMmYyyyRoundTrip` | app.py:60 | writing an ISO date as `DD/MM/YYYY` and converting gives the ISO text back |
| `DateText.ConvertDateRejects` | app.py:58-62 | Feb 31, Feb 29 of 2023, day 0, month 13, trailing text, year 0, ISO input and two-digit years all give `None` |
| `DateText.ConvertDateAccepts` | app.py:58-62 | Feb 29 of 2024, one-digit fields and a space-padded day convert, with zero padding in the output |
| `SqlText.PyLowerChar` | app.py:88 | an ASCII capital becomes its own small letter, a Latin-1 capital the letter 32 code points on, and every other character stays |
| `SqlText.SqlLowerChar` | app.py:95 | SQLite `LOWER` turns an ASCII capital into its own small letter and changes nothing else |
| `SqlText.PyLower` | app.py:88 | `str.lower()` lowers each character in place, so within the modelled ASCII and Latin-1 scope the length is kept |
| `SqlText.SqlLower` | app.py:95 | `LOWER()` keeps length and lowers each character |
| `SqlText.Utf8Length` | app.py:97-98 | the UTF-8 byte length of the bound text: between one and four bytes per character, and one per character exactly for ASCII text |
| `SqlText.Utf8LengthConcat` | app.py:97 | the byte length of a concatenation is the sum of the byte lengths |
| `SqlText.Like` | app.py:95 | SQLite `LIKE` without `ESCAPE`; a pattern with no `%` or `_` matches exactly the texts equal to it up to ASCII case |
| `SqlText.LikeAnything` | app.py:97 | `%` alone matches every text |
| `SqlText.LikePrefix` | app.py:95-98 | `p%` with a wildcard-free `p` matches exactly the texts starting with `p` up to ASCII case |
| `SqlText.LikeLeadingPercent` | app.py:95-98 | a leading `%` matches exactly when the rest matches some suffix |
| `SqlText.LikeContains` | app.py:95-98 | `%p%` with a wildcard-free `p` matches exactly the texts containing `p` up to ASCII case |
| `SqlText.UnderscoreMatchesAnyCharacter` | app.py:97 | an unescaped `_` in the term matches text that contains no `_` |
| `Search.SearchTerm` | app.py:88 | a missing `busca` gives the empty term; otherwise the term is the argument lowered by `str.lower()` character by character, so it has the argument's length and no ASCII capital |
| `Search.LikeMatches` | app.py:95-98 | for a term with no wildcard, a row matches exactly when its SQLite-lowered tag, name or model contains the term up to ASCII case |
| `Search.ListEquipment` | app.py:88-101 | an empty term lists the whole table; otherwise a row is listed iff its tag, name or model is `LIKE '%term%'` |
| `Search.LikeTerm` | app.py:97 | the pattern is the term between two `%`, two bytes longer in UTF-8 |
| `Search.ShortTermNeverRefused` | app.py:97-98 | a term of at most 12,499 characters never exceeds the pattern limit |
| `Search.LongAsciiTermRefused` | app.py:97-98 | an ASCII term of 49,999 characters or more is refused on a table with a row |
| `Search.ListingAppend` | app.py:88-101 | the listing keeps storage order: a later row is listed after the earlier ones |
| `Search.SubstringSearch` | app.py:88-101 | reference search: a row is listed iff the term occurs in its lowered tag, name or model |
| `Search.ColumnLikeIsContains` | app.py:95-97 | on one column, `LIKE` is substring containment when the term has no wildcard and the two lowerings agree |
| `Search.ListingIsSubstringSearch` | app.py:88-101 | under those conditions the listing equals the reference search, order included |
| `Search.UnderscoreTermListsUnrelatedRow` | app.py:95-98 | the term `_` lists a row that does not contain `_` |
| `Search.AccentedNameNotFoundByItself` | app.py:88-98 | the term `ÉCRAN` does not list a row named `ÉCRAN` |
| `Store.EmptyDatabaseConsistent` | app.py:22-43 | freshly created tables are well formed, free of orphans, and hold no history for any id |
| `Store.InsertEquipment` | app.py:75-79 | a taken tag is refused with a unique violation; otherwise one row is appended with a new id above the counter, and nothing else changes |
| `Store.InsertEquipmentKeepsInvariant` | app.py:22-30 | ids stay increasing and unique tags stay unique; the new id is above every earlier id |
| `Store.FindEquipment` | app.py:110 | the lookup finds a row with the id, or reports none iff no row has it |
| `Store.FindEquipmentUnique` | app.py:110 | in a well-formed table the lookup finds the one row with that id |
| `Store.InsertHistory` | app.py:132-145 | one entry is appended with a new id and exactly the given fields; the equipment table is unchanged |
| `Store.InsertHistoryKeepsInvariant` | app.py:31-43 | history ids stay increasing and within the counter |
| `Store.InsertEquipmentKeepsNoOrphans` | app.py:42 | registering equipment never orphans a history entry |
| `Store.InsertHistoryKeepsNoOrphans` | app.py:42 | an entry naming an existing equipment keeps every entry attached |
| `Store.EntriesFor` | app.py:160-161 | the selected entries are exactly the stored entries naming the id |
| `Store.EntriesForEmpty` | app.py:160-161 | the selection is empty iff no entry names the id |
| `Store.NoEntriesForFreshId` | app.py:160-161 | an id not yet handed out has no entries |
| `Store.EntriesForAppend` | app.py:160-161 | selection keeps storage order; a new entry comes last |
| `Store.InsertHistoryOtherEntries` | app.py:132-145 | an entry for one equipment leaves other equipment's selections unchanged |
| `Store.EntriesForCounts` | app.py:160-161 | each entry of the id is selected as many times as it is stored; others never |
| `Schema.CreateTableIfNotExists` | app.py:22-43 | an existing table is kept as it is; a missing one is created with its declared columns |
| `Schema.AddColumnIfMissing` | app.py:46-53 | the table gains the column; no other table changes |
| `Schema.AddNoteColumns` | app.py:46-53 | the table gains both note columns; no other table changes |
| `Schema.CreateTables` | app.py:22-43 | both tables exist afterwards; existing ones and other tables are untouched |
| `Schema.InitDb` | app.py:17-53 | both tables exist and carry both note columns |
| `Schema.InitDbColumns` | app.py:17-53 | each table ends with its earlier (or declared) columns plus the note columns |
| `Schema.InitDbKeepsColumns` | app.py:17-53 | no column is dropped and other tables are unchanged |
| `Schema.InitDbIdempotent` | app.py:17-53 | running `init_db` twice gives the schema of running it once |
| `Schema.InitDbOnEmptyFile` | app.py:17-53 | a fresh file gets the declared tables plus the note columns on `equipamentos` |
| `QrCode.HistoryPath` | app.py:147 | the history path is `/historico/` followed by the id's decimal text, which reads back to the id |
| `QrCode.QrUrl` | app.py:171-172 | the link is the fixed origin followed by the history path of the id |
| `QrCode.QrFilename` | app.py:180 | the file name is `qr_`, the decimal id, `.png` |
| `QrCode.QrUrlRoundTrip` | app.py:171-172 | reading the link back yields the id |
| `QrCode.QrUrlFromId` | app.py:171-172 | every link that reads as an id is that id's link |
| `QrCode.QrFilenameInjective` | app.py:180 | distinct ids get distinct file names |
| `QrCode.SaveQr` | app.py:180-182 | saving writes the id's file with its link and leaves other files alone |
| `QrCode.SaveQrIdempotent` | app.py:180-182 | saving twice equals saving once |
| `QrCode.SaveQrKeepsOtherIds` | app.py:180-182 | saving one id's image never changes another id's file |
| `QrCode.QrExample` | app.py:171-180 | id 7 gives `http://192.168.1.151:5000/historico/7` and `qr_7.png` |
| `Handlers.CadastrarEquipamento` | app.py:65-81 | a taken tag gives a server error with the store unchanged; otherwise a redirect to the listing and one new row holding the form |
| `Handlers.RegisterTwiceFails` | app.py:75-79 | submitting the same registration twice fails the second time |
| `Handlers.ListarEquipamentos` | app.py:86-103 | 500 exactly when the `LIKE` pattern is over SQLite's limit on a non-empty table; otherwise renders the lowered term with `Search.ListEquipment` of the table, so all rows for an empty term and the `LIKE` matches in storage order otherwise |
| `Handlers.ListingShowsNewRowLast` | app.py:92-101 | after a row is added, the listing shows the earlier listing followed by the new row when it matches |
| `Handlers.ListingPageIsSubstringSearch` | app.py:88-101 | for a wildcard-free term and rows without Latin-1 capitals, the rendered page lists exactly the case-insensitive substring matches, in storage order |
| `Handlers.AdicionarHistoricoForm` | app.py:106-149 | 500 iff the id does not fit in 64 bits; else 404 iff the id is unknown; otherwise (and only then) the form is rendered for that id and shows the tag of that equipment |
| `Handlers.AdicionarHistorico` | app.py:106-147 | 500 for an id beyond 64 bits and 404 for an unknown id, both before the dates are looked at; 400 with the literal message for a bad date; otherwise one entry with converted dates and `""` for absent notes, then a redirect to the history page |
| `Handlers.Truthy` | app.py:122 | Python's truth value of an optional text: present and non-empty |
| `Handlers.ConvertedDateTruthy` | app.py:119-122 | `not data` is exactly the failed conversion, since a converted date is never empty |
| `Handlers.ImpossibleDateRefused` | app.py:119-123 | `31/02/2024` is refused with 400 |
| `Handlers.HistoricoEquipamento` | app.py:152-166 | 500 iff the id does not fit in 64 bits; else 404 iff the id is unknown; otherwise the equipment and exactly its entries |
| `Handlers.AddedEntryShownLast` | app.py:132-166 | after a successful submission the history page shows the earlier entries and then the new one |
| `Handlers.OtherHistoriesUnchanged` | app.py:106-166 | a submission for one equipment never changes another's history page |
| `Handlers.RegisterKeepsInvariant` | app.py:65-81 | registration keeps the tables well formed and free of orphans |
| `Handlers.AddHistoryKeepsInvariant` | app.py:106-147 | history submission keeps the tables well formed and free of orphans |
| `Handlers.NewEquipmentHasEmptyHistory` | app.py:75-79 | newly registered equipment has a history page with no entries (when its id fits in 64 bits) |
| `Handlers.ReplayConsistent` | app.py:65-147 | any sequence of registrations and history submissions, starting from fresh tables, leaves them well formed and free of orphans |
| `Handlers.GerarQr` | app.py:169-184 | renders the QR page for the file `qr_<id>.png`, which now holds the id's link; other files are unchanged |
| `Handlers.GerarQrTwice` | app.py:169-184 | generating the same code twice renders the same page and leaves the same folder |

## Left out

- Handlers.ListarEquipamentos: the `LIKE` pattern limit is SQLite's compiled-in
  default of 50,000 bytes; a build with another default, or a call to
  `sqlite3_limit`, is not modelled.
- Flask routing, form and query parsing, and `render_template`: a view is a
  function from the store and its typed inputs to a reply. A form field the
  view reads with `request.form[...]` and that is missing would raise a 400
  in Flask; the model takes those fields as present.
- `cadastrar_equipamento` on GET: it only renders the empty form.
- SQLite connections, SQL text, `PRAGMA table_info` (`coluna_existe`) and
  commits: modelled only by their effect on the row sequences and column
  sets. SQLite's refusal to hand out an `AUTOINCREMENT` id beyond 2^63 - 1
  and case-insensitive column names are not modelled.
- Concurrent requests and transaction isolation.
- The `qrcode` image encoding, `os.makedirs` and the file write: only the link
  text and the file name are modelled, with a folder as a map from name to
  link.
- Server startup, `debug=True` and the host setting (`app.py:186-191`).
- DateText.ParseDdMmYyyy: Python's `\d` also matches non-ASCII decimal
  digits; the model accepts ASCII digits only.
- DateText.IsoDate: `strftime("%Y")` is taken to pad the year to four
  digits. CPython does this on current platforms, but the padding of years
  below 1000 is platform dependent.
- SqlText.PyLowerChar: Python's `str.lower()` is modelled for ASCII and
  Latin-1 capitals only; other scripts are left unchanged.
- SqlText.PyLower: lowering one character at a time keeps the length, which
  holds for ASCII and Latin-1 but not for all of Unicode (`'İ'.lower()` has
  two characters).
- Search.SearchTerm: the term has the argument's length only within the
  ASCII and Latin-1 scope of `SqlText.PyLower`.
- Handlers.NewEquipmentHasEmptyHistory: the empty page is promised only for
  an id within 64 bits, because the model's id counter is unbounded where
  SQLite would refuse the insert instead.
- Store.InsertEquipment: SQLite picks the next id as one above the larger of
  the counter and the largest rowid; since no row is ever deleted or given an
  explicit id here, the model uses the counter alone.

=== FILE: calendar.dfy ===
/** Proleptic Gregorian calendar dates as Python's `datetime.date` accepts them:
    month lengths of section 5.7 of RFC 3339 and the leap-year rule of its
    Appendix C, years from `datetime.MINYEAR` (1) to `datetime.MAXYEAR` (9999). */
module Calendar {

  datatype Date = Date(year: int, month: int, day: int)

  const MinYear: int := 1
  const MaxYear: int := 9999

  predicate IsLeapYear(year: int) {
    year % 4 == 0 && (year % 100 != 0 || year % 400 == 0)
  }

  function DaysInMonth(year: int, month: int): (n: int)
    requires 1 <= month <= 12
    ensures 28 <= n <= 31
    ensures n == 29 <==> month == 2 && IsLeapYear(year)
    ensures n == 31 <==> month in {1, 3, 5, 7, 8, 10, 12}
    ensures n == 30 <==> month in {4, 6, 9, 11}
    ensures n == 28 <==> month == 2 && !IsLeapYear(year)
  {
    if month == 2 then (if IsLeapYear(year) then 29 else 28)
    else if month == 4 || month == 6 || month == 9 || month == 11 then 30
    else 31
  }

  /** A date `datetime.date(year, month, day)` constructs without `ValueError`. */
  predicate ValidDate(d: Date) {
    && MinYear <= d.year <= MaxYear
    && 1 <= d.month <= 12
    && 1 <= d.day <= DaysInMonth(d.year, d.month)
  }

  /** The examples of Appendix C of RFC 3339: centuries are common years
      unless divisible by 400. */
  lemma LeapYearExamples()
    ensures IsLeapYear(2000) && IsLeapYear(2024)
    ensures !IsLeapYear(1900) && !IsLeapYear(2023) && !IsLeapYear(2100)
  {
  }

  /** 29 February exists exactly in leap years. */
  lemma LeapDayValid(year: int)
    requires MinYear <= year <= MaxYear
    ensures ValidDate(Date(year, 2, 29)) <==> IsLeapYear(year)
  {
  }

  /** A day of the month is valid exactly up to the month's length, which is
      never more than 31; years outside 1..9999 have no valid dates. */
  lemma ValidDateBounds(d: Date)
    ensures ValidDate(d) ==> 1 <= d.day <= 31 && 1 <= d.month <= 12
    ensures !(MinYear <= d.year <= MaxYear) ==> !ValidDate(d)
    ensures MinYear <= d.year <= MaxYear && 1 <= d.month <= 12 && 1 <= d.day <= 28 ==> ValidDate(d)
  {
  }
}

=== FILE: date_text.dfy ===
/** `converter_data`: reading a `DD/MM/AAAA` form field with
    `datetime.strptime(s, "%d/%m/%Y")` and writing it back with
    `strftime("%Y-%m-%d")`, a `full-date` of section 5.6 of RFC 3339. */
module DateText {
  import opened Wrappers
  import opened Decimal
  import opened Calendar

  // ---------------------------------------------------------------------
  // The accepted spellings of a date, stated independently of the parser.
  // ---------------------------------------------------------------------

  /** How a day field may be written: `05`, `5` or ` 5` (a space then one digit). */
  datatype DayStyle = DayPadded | DayBare | DaySpaced

  /** How a month field may be written: `03` or `3`. */
  datatype MonthStyle = MonthPadded | MonthBare

  predicate DayStyleFits(day: int, style: DayStyle) {
    1 <= day <= 31 && (style != DayPadded ==> day <= 9)
  }

  predicate MonthStyleFits(month: int, style: MonthStyle) {
    1 <= month <= 12 && (style == MonthBare ==> month <= 9)
  }

  function DayText(day: int, style: DayStyle): string
    requires DayStyleFits(day, style)
  {
    match style
    case DayPadded => PadDigits(day, 2)
    case DayBare => PadDigits(day, 1)
    case DaySpaced => " " + PadDigits(day, 1)
  }

  function MonthText(month: int, style: MonthStyle): string
    requires MonthStyleFits(month, style)
  {
    match style
    case MonthPadded => PadDigits(month, 2)
    case MonthBare => PadDigits(month, 1)
  }

  /** `date` is a calendar date and the two styles can spell its day and month. */
  predicate Spellable(date: Date, ds: DayStyle, ms: MonthStyle) {
    ValidDate(date) && DayStyleFits(date.day, ds) && MonthStyleFits(date.month, ms)
  }

  /** One spelling of `date` in the `%d/%m/%Y` form; the year always has four digits. */
  function DayMonthYearText(date: Date, ds: DayStyle, ms: MonthStyle): string
    requires Spellable(date, ds, ms)
  {
    DayText(date.day, ds) + "/" + MonthText(date.month, ms) + "/" + PadDigits(date.year, 4)
  }

  // ---------------------------------------------------------------------
  // The parser, directive by directive.
  // ---------------------------------------------------------------------

  /** A directive's numeric value and the text left after it. */
  datatype Scan = Scan(value: int, rest: string)

  predicate IsNonZeroDigit(c: char) {
    '1' <= c <= '9'
  }

  /** The `%d` directive of CPython's `strptime`: the alternatives `3[01]`,
      `[12]\d`, `0[1-9]`, `[1-9]` and ` [1-9]`, tried in that order. Taking
      the first alternative that matches loses nothing to the regex engine's
      backtracking here: a two-character match ends in a digit, so a '/'
      cannot follow a one-character match at the same place. */
  function ScanDay(s: string): (r: Option<Scan>)
    ensures r.Some? ==> 1 <= r.value.value <= 31
  {
    if |s| >= 2 && s[0] == '3' && (s[1] == '0' || s[1] == '1') then
      Some(Scan(30 + DigitValue(s[1]), s[2..]))
    else if |s| >= 2 && (s[0] == '1' || s[0] == '2') && IsDigit(s[1]) then
      Some(Scan(10 * DigitValue(s[0]) + DigitValue(s[1]), s[2..]))
    else if |s| >= 2 && s[0] == '0' && IsNonZeroDigit(s[1]) then
      Some(Scan(DigitValue(s[1]), s[2..]))
    else if |s| >= 1 && IsNonZeroDigit(s[0]) then
      Some(Scan(DigitValue(s[0]), s[1..]))
    else if |s| >= 2 && s[0] == ' ' && IsNonZeroDigit(s[1]) then
      Some(Scan(DigitValue(s[1]), s[2..]))
    else
      None
  }

  /** The `%m` directive: the alternatives `1[0-2]`, `0[1-9]` and `[1-9]`. */
  function ScanMonth(s: string): (r: Option<Scan>)
    ensures r.Some? ==> 1 <= r.value.value <= 12
  {
    if |s| >= 2 && s[0] == '1' && '0' <= s[1] <= '2' then
      Some(Scan(10 + DigitValue(s[1]), s[2..]))
    else if |s| >= 2 && s[0] == '0' && IsNonZeroDigit(s[1]) then
      Some(Scan(DigitValue(s[1]), s[2..]))
    else if |s| >= 1 && IsNonZeroDigit(s[0]) then
      Some(Scan(DigitValue(s[0]), s[1..]))
    else
      None
  }

  /** `strptime(s, "%d/%m/%Y")`, with `None` for every `ValueError`: the
      pattern does not match, text remains after the year, or the fields
      do not name a date `datetime.date` accepts. */
  function ParseDdMmYyyy(s: string): (r: Option<Date>)
    ensures r.Some? ==> ValidDate(r.value)
  {
    match ScanDay(s)
    case None => None
    case Some(day) =>
      if |day.rest| == 0 || day.rest[0] != '/' then None
      else
        match ScanMonth(day.rest[1..])
        case None => None
        case Some(month) =>
          var tail := month.rest;
          if |tail| < 5 || tail[0] != '/' || !AllDigits(tail[1..5]) then None
          else if |tail| > 5 then None
          else
            var date := Date(DecimalValue(tail[1..5]), month.value, day.value);
            if ValidDate(date) then Some(date) else None
  }

  // ---------------------------------------------------------------------
  // The ISO side: `strftime("%Y-%m-%d")` and reading it back.
  // ---------------------------------------------------------------------

  /** The shape `YYYY-MM-DD`. */
  predicate IsFullDate(t: string) {
    && |t| == 10
    && AllDigits(t[..4]) && t[4] == '-'
    && AllDigits(t[5..7]) && t[7] == '-'
    && AllDigits(t[8..])
  }

  /** `date.strftime("%Y-%m-%d")`, every field zero-padded. */
  function IsoDate(date: Date): (t: string)
    requires ValidDate(date)
    ensures IsFullDate(t)
  {
    var y := PadDigits(date.year, 4);
    var m := PadDigits(date.month, 2);
    var d := PadDigits(date.day, 2);
    IsoLayout(y, m, d);
    y + "-" + m + "-" + d
  }

  /** Each field of the ISO text reads back as the date's own field. */
  lemma IsoDateFields(date: Date)
    requires ValidDate(date)
    ensures var t := IsoDate(date);
            && DecimalValue(t[..4]) == date.year
            && DecimalValue(t[5..7]) == date.month
            && DecimalValue(t[8..]) == date.day
  {
    IsoLayout(PadDigits(date.year, 4), PadDigits(date.month, 2), PadDigits(date.day, 2));
    PadDigitsValue(date.year, 4);
    PadDigitsValue(date.month, 2);
    PadDigitsValue(date.day, 2);
  }

  /** Where the fields sit in `YYYY-MM-DD`. */
  lemma IsoLayout(y: string, m: string, d: string)
    requires |y| == 4 && |m| == 2 && |d| == 2
    ensures var t := y + "-" + m + "-" + d;
            |t| == 10 && t[..4] == y && t[4] == '-' && t[5..7] == m && t[7] == '-' && t[8..] == d
  {
    var t := y + "-" + m + "-" + d;
    assert t[..4] == y;
    assert t[5..7] == m;
    assert t[8..] == d;
  }

  /** Strict reading of a `full-date`: the exact shape and a real date. */
  function ParseIsoDate(t: string): (r: Option<Date>)
    ensures r.Some? ==> ValidDate(r.value) && IsoDate(r.value) == t
  {
    if !IsFullDate(t) then None
    else
      var date := Date(DecimalValue(t[..4]), DecimalValue(t[5..7]), DecimalValue(t[8..]));
      if !ValidDate(date) then None
      else
        IsoFields(t);
        Some(date)
  }

  /** A text of the `YYYY-MM-DD` shape is the padded writing of its own fields. */
  lemma IsoFields(t: string)
    requires IsFullDate(t)
    ensures t == PadDigits(DecimalValue(t[..4]), 4) + "-" + PadDigits(DecimalValue(t[5..7]), 2)
                 + "-" + PadDigits(DecimalValue(t[8..]), 2)
  {
    PadDigitsOfValue(t[..4]);
    PadDigitsOfValue(t[5..7]);
    PadDigitsOfValue(t[8..]);
    assert t == t[..4] + "-" + t[5..7] + "-" + t[8..];
  }

  /** `converter_data`: the ISO text of the date, or `None` instead of a `ValueError`. */
  function ConvertDate(s: string): (r: Option<string>)
    ensures r.Some? ==> IsFullDate(r.value)
    ensures r.Some? ==> ParseIsoDate(r.value) == ParseDdMmYyyy(s)
  {
    match ParseDdMmYyyy(s)
    case None => None
    case Some(date) =>
      IsoRoundTrip(date);
      Some(IsoDate(date))
  }

  // ---------------------------------------------------------------------
  // Properties.
  // ---------------------------------------------------------------------

  /** Reading back what `strftime` wrote gives the same date. */
  lemma IsoRoundTrip(date: Date)
    requires ValidDate(date)
    ensures ParseIsoDate(IsoDate(date)) == Some(date)
  {
    IsoDateFields(date);
  }

  /** What `%d` consumed: two digits, one non-zero digit, or a space and one
      non-zero digit. */
  lemma ScanDayShape(s: string)
    requires ScanDay(s).Some?
    ensures var r := ScanDay(s).value;
            || (|s| >= 2 && IsDigit(s[0]) && IsDigit(s[1]) && r.value == 10 * DigitValue(s[0]) + DigitValue(s[1]) && r.rest == s[2..])
            || (|s| >= 1 && IsDigit(s[0]) && r.value == DigitValue(s[0]) && r.rest == s[1..])
            || (|s| >= 2 && s[0] == ' ' && IsDigit(s[1]) && r.value == DigitValue(s[1]) && r.rest == s[2..])
  {
  }

  /** What `%m` consumed: two digits or one non-zero digit. */
  lemma ScanMonthShape(s: string)
    requires ScanMonth(s).Some?
    ensures var r := ScanMonth(s).value;
            || (|s| >= 2 && IsDigit(s[0]) && IsDigit(s[1]) && r.value == 10 * DigitValue(s[0]) + DigitValue(s[1]) && r.rest == s[2..])
            || (|s| >= 1 && IsDigit(s[0]) && r.value == DigitValue(s[0]) && r.rest == s[1..])
  {
  }

  lemma ScanDaySound(s: string)
    requires ScanDay(s).Some?
    ensures exists style :: DayStyleFits(ScanDay(s).value.value, style)
                            && s == DayText(ScanDay(s).value.value, style) + ScanDay(s).value.rest
  {
    var r := ScanDay(s).value;
    ScanDayShape(s);
    var style := DaySpelled(s, r.value, r.rest);
    assert DayStyleFits(r.value, style) && s == DayText(r.value, style) + r.rest;
  }

  /** Each shape `%d` consumes is one of the spellings of its value. */
  lemma DaySpelled(s: string, v: int, rest: string) returns (style: DayStyle)
    requires 1 <= v <= 31
    requires || (|s| >= 2 && IsDigit(s[0]) && IsDigit(s[1]) && v == 10 * DigitValue(s[0]) + DigitValue(s[1]) && rest == s[2..])
             || (|s| >= 1 && IsDigit(s[0]) && v == DigitValue(s[0]) && rest == s[1..])
             || (|s| >= 2 && s[0] == ' ' && IsDigit(s[1]) && v == DigitValue(s[1]) && rest == s[2..])
    ensures DayStyleFits(v, style) && s == DayText(v, style) + rest
  {
    if |s| >= 2 && IsDigit(s[0]) && IsDigit(s[1]) && v == 10 * DigitValue(s[0]) + DigitValue(s[1]) && rest == s[2..] {
      PaddedDaySpelled(s, v, rest);
      style := DayPadded;
    } else if |s| >= 1 && IsDigit(s[0]) && v == DigitValue(s[0]) && rest == s[1..] {
      BareDaySpelled(s, v, rest);
      style := DayBare;
    } else {
      SpacedDaySpelled(s, v, rest);
      style := DaySpaced;
    }
  }

  lemma PaddedDaySpelled(s: string, v: int, rest: string)
    requires 1 <= v <= 31
    requires |s| >= 2 && IsDigit(s[0]) && IsDigit(s[1]) && v == 10 * DigitValue(s[0]) + DigitValue(s[1]) && rest == s[2..]
    ensures DayStyleFits(v, DayPadded) && s == DayText(v, DayPadded) + rest
  {
    TwoDigitPrefix(s);
  }

  lemma BareDaySpelled(s: string, v: int, rest: string)
    requires 1 <= v <= 9
    requires |s| >= 1 && IsDigit(s[0]) && v == DigitValue(s[0]) && rest == s[1..]
    ensures DayStyleFits(v, DayBare) && s == DayText(v, DayBare) + rest
  {
    OneDigitPrefix(s);
  }

  lemma SpacedDaySpelled(s: string, v: int, rest: string)
    requires 1 <= v <= 9
    requires |s| >= 2 && s[0] == ' ' && IsDigit(s[1]) && v == DigitValue(s[1]) && rest == s[2..]
    ensures DayStyleFits(v, DaySpaced) && s == DayText(v, DaySpaced) + rest
  {
    SpacedPrefix(s);
  }

  lemma SpacedPrefix(s: string)
    requires |s| >= 2 && s[0] == ' ' && IsDigit(s[1])
    ensures s == " " + PadDigits(DigitValue(s[1]), 1) + s[2..]
  {
    OneDigitPrefix(s[1..]);
    assert s == [s[0]] + s[1..];
  }

  lemma ScanMonthSound(s: string)
    requires ScanMonth(s).Some?
    ensures exists style :: MonthStyleFits(ScanMonth(s).value.value, style)
                            && s == MonthText(ScanMonth(s).value.value, style) + ScanMonth(s).value.rest
  {
    var r := ScanMonth(s).value;
    ScanMonthShape(s);
    var style := MonthSpelled(s, r.value, r.rest);
    assert MonthStyleFits(r.value, style) && s == MonthText(r.value, style) + r.rest;
  }

  /** Each shape `%m` consumes is one of the spellings of its value. */
  lemma MonthSpelled(s: string, v: int, rest: string) returns (style: MonthStyle)
    requires 1 <= v <= 12
    requires || (|s| >= 2 && IsDigit(s[0]) && IsDigit(s[1]) && v == 10 * DigitValue(s[0]) + DigitValue(s[1]) && rest == s[2..])
             || (|s| >= 1 && IsDigit(s[0]) && v == DigitValue(s[0]) && rest == s[1..])
    ensures MonthStyleFits(v, style) && s == MonthText(v, style) + rest
  {
    if |s| >= 2 && IsDigit(s[0]) && IsDigit(s[1]) && v == 10 * DigitValue(s[0]) + DigitValue(s[1]) && rest == s[2..] {
      PaddedMonthSpelled(s, v, rest);
      style := MonthPadded;
    } else {
      BareMonthSpelled(s, v, rest);
      style := MonthBare;
    }
  }

  lemma PaddedMonthSpelled(s: string, v: int, rest: string)
    requires 1 <= v <= 12
    requires |s| >= 2 && IsDigit(s[0]) && IsDigit(s[1]) && v == 10 * DigitValue(s[0]) + DigitValue(s[1]) && rest == s[2..]
    ensures MonthStyleFits(v, MonthPadded) && s == MonthText(v, MonthPadded) + rest
  {
    TwoDigitPrefix(s);
  }

  lemma BareMonthSpelled(s: string, v: int, rest: string)
    requires 1 <= v <= 9
    requires |s| >= 1 && IsDigit(s[0]) && v == DigitValue(s[0]) && rest == s[1..]
    ensures MonthStyleFits(v, MonthBare) && s == MonthText(v, MonthBare) + rest
  {
    OneDigitPrefix(s);
  }

  /** `%d` reads every spelling of a day when a '/' follows it. */
  lemma ScanDayComplete(day: int, style: DayStyle, rest: string)
    requires DayStyleFits(day, style)
    ensures ScanDay(DayText(day, style) + "/" + rest) == Some(Scan(day, "/" + rest))
  {
    match style
    case DayPadded => ScanPaddedDay(day, rest);
    case DayBare => ScanBareDay(day, rest);
    case DaySpaced => ScanSpacedDayText(day, rest);
  }

  lemma ScanPaddedDay(day: int, rest: string)
    requires 1 <= day <= 31
    ensures ScanDay(PadDigits(day, 2) + "/" + rest) == Some(Scan(day, "/" + rest))
  {
    PadTwoDigits(day);
    assert PadDigits(day, 2) + "/" + rest == [DigitChar(day / 10), DigitChar(day % 10)] + ("/" + rest);
    ScanTwoDigitDay(day, "/" + rest);
  }

  lemma ScanBareDay(day: int, rest: string)
    requires 1 <= day <= 9
    ensures ScanDay(PadDigits(day, 1) + "/" + rest) == Some(Scan(day, "/" + rest))
  {
    PadOneDigit(day);
    assert PadDigits(day, 1) + "/" + rest == [DigitChar(day)] + ("/" + rest);
    ScanOneDigitDay(day, "/" + rest);
  }

  lemma ScanSpacedDayText(day: int, rest: string)
    requires 1 <= day <= 9
    ensures ScanDay(" " + PadDigits(day, 1) + "/" + rest) == Some(Scan(day, "/" + rest))
  {
    PadOneDigit(day);
    assert " " + PadDigits(day, 1) + "/" + rest == [' ', DigitChar(day)] + ("/" + rest);
    ScanSpacedDay(day, "/" + rest);
  }

  lemma ScanTwoDigitDay(day: int, tail: string)
    requires 1 <= day <= 31
    ensures ScanDay([DigitChar(day / 10), DigitChar(day % 10)] + tail) == Some(Scan(day, tail))
  {
    var s := [DigitChar(day / 10), DigitChar(day % 10)] + tail;
    assert s[2..] == tail;
    var a := day / 10;
    if a == 3 {
      assert s[0] == '3' && (s[1] == '0' || s[1] == '1');
    } else if a == 0 {
      assert s[0] == '0' && IsNonZeroDigit(s[1]);
    } else {
      assert s[0] != '3' && (s[0] == '1' || s[0] == '2') && IsDigit(s[1]);
    }
  }

  lemma ScanOneDigitDay(day: int, tail: string)
    requires 1 <= day <= 9 && |tail| > 0 && tail[0] == '/'
    ensures ScanDay([DigitChar(day)] + tail) == Some(Scan(day, tail))
  {
    var s := [DigitChar(day)] + tail;
    assert s[1..] == tail;
    assert s[1] == '/' && s[0] != '0' && IsNonZeroDigit(s[0]);
  }

  lemma ScanSpacedDay(day: int, tail: string)
    requires 1 <= day <= 9
    ensures ScanDay([' ', DigitChar(day)] + tail) == Some(Scan(day, tail))
  {
    var s := [' ', DigitChar(day)] + tail;
    assert s[2..] == tail;
    assert s[0] == ' ' && IsNonZeroDigit(s[1]);
  }

  /** `%m` reads every spelling of a month when a '/' follows it. */
  lemma ScanMonthComplete(month: int, style: MonthStyle, rest: string)
    requires MonthStyleFits(month, style)
    ensures ScanMonth(MonthText(month, style) + "/" + rest) == Some(Scan(month, "/" + rest))
  {
    match style
    case MonthPadded => ScanPaddedMonth(month, rest);
    case MonthBare => ScanBareMonth(month, rest);
  }

  lemma ScanPaddedMonth(month: int, rest: string)
    requires 1 <= month <= 12
    ensures ScanMonth(PadDigits(month, 2) + "/" + rest) == Some(Scan(month, "/" + rest))
  {
    PadTwoDigits(month);
    assert PadDigits(month, 2) + "/" + rest == [DigitChar(month / 10), DigitChar(month % 10)] + ("/" + rest);
    ScanTwoDigitMonth(month, "/" + rest);
  }

  lemma ScanBareMonth(month: int, rest: string)
    requires 1 <= month <= 9
    ensures ScanMonth(PadDigits(month, 1) + "/" + rest) == Some(Scan(month, "/" + rest))
  {
    PadOneDigit(month);
    assert PadDigits(month, 1) + "/" + rest == [DigitChar(month)] + ("/" + rest);
    ScanOneDigitMonth(month, "/" + rest);
  }

  lemma ScanTwoDigitMonth(month: int, tail: string)
    requires 1 <= month <= 12
    ensures ScanMonth([DigitChar(month / 10), DigitChar(month % 10)] + tail) == Some(Scan(month, tail))
  {
    var s := [DigitChar(month / 10), DigitChar(month % 10)] + tail;
    assert s[2..] == tail;
    if month >= 10 {
      assert s[0] == '1' && '0' <= s[1] <= '2';
    } else {
      assert s[0] == '0' && IsNonZeroDigit(s[1]);
    }
  }

  lemma ScanOneDigitMonth(month: int, tail: string)
    requires 1 <= month <= 9 && |tail| > 0 && tail[0] == '/'
    ensures ScanMonth([DigitChar(month)] + tail) == Some(Scan(month, tail))
  {
    var s := [DigitChar(month)] + tail;
    assert s[1..] == tail;
    assert s[1] == '/' && s[0] != '0' && IsNonZeroDigit(s[0]);
  }

  /** Every spelling of a real date is read as that date. */
  lemma ParseComplete(date: Date, ds: DayStyle, ms: MonthStyle)
    requires Spellable(date, ds, ms)
    ensures ParseDdMmYyyy(DayMonthYearText(date, ds, ms)) == Some(date)
  {
    var d := DayText(date.day, ds);
    var m := MonthText(date.month, ms);
    var y := PadDigits(date.year, 4);
    var s := DayMonthYearText(date, ds, ms);
    RegroupAfterDay(d, m, y);
    ScanDayComplete(date.day, ds, m + "/" + y);
    ScanMonthComplete(date.month, ms, y);
    ParseSteps(s, date.day, m + "/" + y, date.month, y);
    PadDigitsValue(date.year, 4);
  }

  lemma RegroupAfterDay(d: string, m: string, y: string)
    ensures d + "/" + m + "/" + y == d + "/" + (m + "/" + y)
  {
  }

  /** Once `%d` and `%m` have read their fields, the result depends only on
      the year digits and on the calendar. */
  lemma ParseSteps(s: string, day: int, afterSlash: string, month: int, y: string)
    requires ScanDay(s) == Some(Scan(day, "/" + afterSlash))
    requires ScanMonth(afterSlash) == Some(Scan(month, "/" + y))
    requires |y| == 4 && AllDigits(y)
    ensures ParseDdMmYyyy(s) ==
              (if ValidDate(Date(DecimalValue(y), month, day)) then Some(Date(DecimalValue(y), month, day)) else None)
  {
    assert ("/" + afterSlash)[1..] == afterSlash;
    assert ("/" + y)[1..5] == y;
  }

  /** Whatever is read as a date is one of that date's spellings. */
  lemma ParseSound(s: string)
    requires ParseDdMmYyyy(s).Some?
    ensures exists ds, ms :: Spellable(ParseDdMmYyyy(s).value, ds, ms)
                             && s == DayMonthYearText(ParseDdMmYyyy(s).value, ds, ms)
  {
    var day := ScanDay(s).value;
    var month := ScanMonth(day.rest[1..]).value;
    SpellingFromFields(s, day, month, ParseDdMmYyyy(s).value);
  }

  lemma SpellingFromFields(s: string, day: Scan, month: Scan, date: Date)
    requires ScanDay(s) == Some(day) && |day.rest| > 0 && day.rest[0] == '/'
    requires ScanMonth(day.rest[1..]) == Some(month)
    requires |month.rest| == 5 && month.rest[0] == '/' && AllDigits(month.rest[1..5])
    requires date == Date(DecimalValue(month.rest[1..5]), month.value, day.value) && ValidDate(date)
    ensures exists ds, ms :: Spellable(date, ds, ms) && s == DayMonthYearText(date, ds, ms)
  {
    var tail := month.rest;
    var y := tail[1..5];
    SlashThen(day.rest, day.rest[1..]);
    SlashThen(tail, y);
    PadDigitsOfValue(y);
    ScanDaySound(s);
    var ds :| DayStyleFits(day.value, ds) && s == DayText(day.value, ds) + day.rest;
    ScanMonthSound(day.rest[1..]);
    var ms :| MonthStyleFits(month.value, ms) && day.rest[1..] == MonthText(month.value, ms) + tail;
    SpellingParts(s, DayText(day.value, ds), MonthText(month.value, ms), y);
    assert Spellable(date, ds, ms) && s == DayMonthYearText(date, ds, ms);
  }

  lemma SlashThen(t: string, after: string)
    requires |t| > 0 && t[0] == '/' && after == t[1..|t|]
    ensures t == "/" + after
  {
  }

  /** Reassembles a text from its day, month and year fields. */
  lemma SpellingParts(s: string, d: string, m: string, y: string)
    requires s == d + ("/" + (m + ("/" + y)))
    ensures s == d + "/" + m + "/" + y
  {
  }

  /** `converter_data` succeeds exactly on the spellings of real dates. */
  lemma ConvertDateAcceptsExactlyDates(s: string)
    ensures ConvertDate(s).Some? <==>
            exists date, ds, ms :: Spellable(date, ds, ms) && s == DayMonthYearText(date, ds, ms)
  {
    if ConvertDate(s).Some? {
      ParseSound(s);
    }
    if exists date, ds, ms :: Spellable(date, ds, ms) && s == DayMonthYearText(date, ds, ms) {
      var date, ds, ms :| Spellable(date, ds, ms) && s == DayMonthYearText(date, ds, ms);
      ParseComplete(date, ds, ms);
    }
  }

  /** On success the ISO text denotes the very year, month and day that were typed. */
  lemma ConvertDateKeepsTheDate(date: Date, ds: DayStyle, ms: MonthStyle)
    requires Spellable(date, ds, ms)
    ensures ConvertDate(DayMonthYearText(date, ds, ms)) == Some(IsoDate(date))
    ensures ParseIsoDate(IsoDate(date)) == Some(date)
  {
    ParseComplete(date, ds, ms);
  }

  /** Converting the zero-padded `DD/MM/AAAA` form of a stored ISO date gives that ISO text back. */
  lemma IsoToDdMmYyyyRoundTrip(t: string)
    requires ParseIsoDate(t).Some?
    ensures ConvertDate(DayMonthYearText(ParseIsoDate(t).value, DayPadded, MonthPadded)) == Some(t)
  {
    ParseComplete(ParseIsoDate(t).value, DayPadded, MonthPadded);
  }

  /** Impossible calendar dates, unmatched fields and trailing text are all rejected. */
  lemma ConvertDateRejects()
    ensures ConvertDate("31/02/2024") == None
    ensures ConvertDate("29/02/2023") == None
    ensures ConvertDate("00/01/2024") == None
    ensures ConvertDate("01/13/2024") == None
    ensures ConvertDate("01/01/2024x") == None
    ensures ConvertDate("01/01/0000") == None
    ensures ConvertDate("2024-01-01") == None
    ensures ConvertDate("1/1/24") == None
  {
    RejectsDayPastMonthEnd();
    RejectsLeapDayOfCommonYear();
    RejectsDayZero();
    RejectsMonthThirteen();
    RejectsTrailingText();
    RejectsYearZero();
    RejectsIsoInput();
    RejectsShortYear();
  }

  /** `converter_data` fails exactly where `strptime` does. */
  lemma ConvertDateFailsWithParse(s: string)
    ensures ConvertDate(s) == None <==> ParseDdMmYyyy(s) == None
  {
  }

  lemma RejectsDayPastMonthEnd()
    ensures ConvertDate("31/02/2024") == None
  {
    ParseRejectsDayPastMonthEnd();
    ConvertDateFailsWithParse("31/02/2024");
  }

  lemma ParseRejectsDayPastMonthEnd()
    ensures ParseDdMmYyyy("31/02/2024") == None
  {
    assert ScanDay("31/02/2024") == Some(Scan(31, "/02/2024")) by { assert "31/02/2024"[2..] == "/02/2024"; }
    assert "/02/2024"[1..] == "02/2024";
    assert ScanMonth("02/2024") == Some(Scan(2, "/2024")) by { assert "02/2024"[2..] == "/2024"; }
  }

  lemma RejectsLeapDayOfCommonYear()
    ensures ConvertDate("29/02/2023") == None
  {
    ParseRejectsLeapDayOfCommonYear();
    ConvertDateFailsWithParse("29/02/2023");
  }

  lemma ParseRejectsLeapDayOfCommonYear()
    ensures ParseDdMmYyyy("29/02/2023") == None
  {
    YearValue2023();
    assert ScanDay("29/02/2023") == Some(Scan(29, "/02/2023")) by { assert "29/02/2023"[2..] == "/02/2023"; }
    assert "/02/2023"[1..] == "02/2023";
    assert ScanMonth("02/2023") == Some(Scan(2, "/2023")) by { assert "02/2023"[2..] == "/2023"; }
    assert "/2023"[1..5] == "2023";
    assert !IsLeapYear(2023);
  }

  /** Kept apart from the lemma above, where the arithmetic would share the
      solver's context with the scanning facts. */
  lemma YearValue2023()
    ensures DecimalValue("2023") == 2023
  {
    FourDigitValue("2023");
  }

  lemma RejectsDayZero()
    ensures ConvertDate("00/01/2024") == None
  {
    ParseRejectsDayZero();
    ConvertDateFailsWithParse("00/01/2024");
  }

  lemma ParseRejectsDayZero()
    ensures ParseDdMmYyyy("00/01/2024") == None
  {
    var s := "00/01/2024";
    assert s[0] == '0' && s[1] == '0';
    assert ScanDay(s) == None;
  }

  lemma RejectsMonthThirteen()
    ensures ConvertDate("01/13/2024") == None
  {
    ParseRejectsMonthThirteen();
    ConvertDateFailsWithParse("01/13/2024");
  }

  lemma ParseRejectsMonthThirteen()
    ensures ParseDdMmYyyy("01/13/2024") == None
  {
    assert ScanDay("01/13/2024") == Some(Scan(1, "/13/2024")) by { assert "01/13/2024"[2..] == "/13/2024"; }
    assert "/13/2024"[1..] == "13/2024";
    assert ScanMonth("13/2024") == Some(Scan(1, "3/2024")) by { assert "13/2024"[1..] == "3/2024"; }
    assert "3/2024"[0] == '3';
  }

  lemma RejectsTrailingText()
    ensures ConvertDate("01/01/2024x") == None
  {
    ParseRejectsTrailingText();
    ConvertDateFailsWithParse("01/01/2024x");
  }

  lemma ParseRejectsTrailingText()
    ensures ParseDdMmYyyy("01/01/2024x") == None
  {
    assert ScanDay("01/01/2024x") == Some(Scan(1, "/01/2024x")) by { assert "01/01/2024x"[2..] == "/01/2024x"; }
    assert "/01/2024x"[1..] == "01/2024x";
    assert ScanMonth("01/2024x") == Some(Scan(1, "/2024x")) by { assert "01/2024x"[2..] == "/2024x"; }
    assert |"/2024x"| == 6;
  }

  lemma RejectsYearZero()
    ensures ConvertDate("01/01/0000") == None
  {
    ParseRejectsYearZero();
    ConvertDateFailsWithParse("01/01/0000");
  }

  lemma ParseRejectsYearZero()
    ensures ParseDdMmYyyy("01/01/0000") == None
  {
    assert ScanDay("01/01/0000") == Some(Scan(1, "/01/0000")) by { assert "01/01/0000"[2..] == "/01/0000"; }
    assert "/01/0000"[1..] == "01/0000";
    assert ScanMonth("01/0000") == Some(Scan(1, "/0000")) by { assert "01/0000"[2..] == "/0000"; }
    assert "/0000"[1..5] == "0000";
    FourDigitValue("0000");
  }

  lemma RejectsIsoInput()
    ensures ConvertDate("2024-01-01") == None
  {
    ParseRejectsIsoInput();
    ConvertDateFailsWithParse("2024-01-01");
  }

  lemma ParseRejectsIsoInput()
    ensures ParseDdMmYyyy("2024-01-01") == None
  {
    assert ScanDay("2024-01-01") == Some(Scan(20, "24-01-01")) by { assert "2024-01-01"[2..] == "24-01-01"; }
    assert "24-01-01"[0] == '2';
  }

  lemma RejectsShortYear()
    ensures ConvertDate("1/1/24") == None
  {
    ParseRejectsShortYear();
    ConvertDateFailsWithParse("1/1/24");
  }

  lemma ParseRejectsShortYear()
    ensures ParseDdMmYyyy("1/1/24") == None
  {
    assert ScanDay("1/1/24") == Some(Scan(1, "/1/24")) by { assert "1/1/24"[1..] == "/1/24"; }
    assert "/1/24"[1..] == "1/24";
    assert ScanMonth("1/24") == Some(Scan(1, "/24")) by { assert "1/24"[1..] == "/24"; }
    assert |"/24"| == 3;
  }

  /** Padded, bare and space-padded fields are all read, and the output is zero-padded. */
  lemma ConvertDateAccepts()
    ensures ConvertDate("29/02/2024") == Some("2024-02-29")
    ensures ConvertDate("5/3/2024") == Some("2024-03-05")
    ensures ConvertDate(" 5/03/0999") == Some("0999-03-05")
  {
    AcceptsLeapDay();
    AcceptsBareFields();
    AcceptsSpacedDay();
  }

  /** On success `converter_data` writes the ISO text of the date `strptime` read. */
  lemma ConvertDateWritesParsed(s: string)
    requires ParseDdMmYyyy(s).Some?
    ensures ConvertDate(s) == Some(IsoDate(ParseDdMmYyyy(s).value))
  {
  }

  lemma AcceptsLeapDay()
    ensures ConvertDate("29/02/2024") == Some("2024-02-29")
  {
    var date := Date(2024, 2, 29);
    LeapDaySpelling();
    ParseComplete(date, DayPadded, MonthPadded);
    LeapDayIso();
    ConvertDateWritesParsed("29/02/2024");
  }

  // The spellings and ISO texts of the example dates, computed.

  lemma LeapDaySpelling()
    ensures DayMonthYearText(Date(2024, 2, 29), DayPadded, MonthPadded) == "29/02/2024"
  {
  }

  lemma LeapDayIso()
    ensures IsoDate(Date(2024, 2, 29)) == "2024-02-29"
  {
  }

  lemma AcceptsBareFields()
    ensures ConvertDate("5/3/2024") == Some("2024-03-05")
  {
    var date := Date(2024, 3, 5);
    BareFieldsSpelling();
    ParseComplete(date, DayBare, MonthBare);
    BareFieldsIso();
    ConvertDateWritesParsed("5/3/2024");
  }

  lemma BareFieldsSpelling()
    ensures DayMonthYearText(Date(2024, 3, 5), DayBare, MonthBare) == "5/3/2024"
  {
  }

  lemma BareFieldsIso()
    ensures IsoDate(Date(2024, 3, 5)) == "2024-03-05"
  {
  }

  lemma AcceptsSpacedDay()
    ensures ConvertDate(" 5/03/0999") == Some("0999-03-05")
  {
    var date := Date(999, 3, 5);
    assert IsoDate(date) == "0999-03-05";
    SpacedDaySpelling();
    ParseComplete(date, DaySpaced, MonthPadded);
    ConvertDateWritesParsed(" 5/03/0999");
  }

  lemma SpacedDaySpelling()
    ensures DayMonthYearText(Date(999, 3, 5), DaySpaced, MonthPadded) == " 5/03/0999"
  {
    assert DayText(5, DaySpaced) == " 5";
    assert MonthText(3, MonthPadded) == "03";
    assert PadDigits(999, 4) == "0999";
  }
}

=== FILE: decimal.dfy ===
/** Decimal digit strings: the text forms of integers used by `strptime`,
    `strftime` and Python's `str(int)`. */
module Decimal {
  import opened Wrappers

  predicate IsDigit(c: char) {
    '0' <= c <= '9'
  }

  predicate AllDigits(s: string) {
    forall i :: 0 <= i < |s| ==> IsDigit(s[i])
  }

  function DigitValue(c: char): (d: nat)
    requires IsDigit(c)
    ensures d <= 9
  {
    c as int - '0' as int
  }

  function DigitChar(d: nat): (c: char)
    requires d <= 9
    ensures IsDigit(c) && DigitValue(c) == d
  {
    ('0' as int + d) as char
  }

  lemma DigitCharOfValue(c: char)
    requires IsDigit(c)
    ensures DigitChar(DigitValue(c)) == c
  {
  }

  function Pow10(k: nat): (p: nat)
    ensures p >= 1
  {
    if k == 0 then 1 else 10 * Pow10(k - 1)
  }

  /** The value of a string of decimal digits, most significant digit first. */
  function DecimalValue(s: string): (n: nat)
    requires AllDigits(s)
    ensures n < Pow10(|s|)
  {
    if |s| == 0 then 0 else 10 * DecimalValue(s[..|s| - 1]) + DigitValue(s[|s| - 1])
  }

  /** `n` written with exactly `width` digits, zero-padded on the left
      (the `%02d`/`%04d` style of `strftime`). */
  function PadDigits(n: nat, width: nat): (r: string)
    requires n < Pow10(width)
    ensures |r| == width && AllDigits(r)
  {
    if width == 0 then [] else PadDigits(n / 10, width - 1) + [DigitChar(n % 10)]
  }

  /** The padded text reads back as the number it was written from. */
  lemma {:induction false} PadDigitsValue(n: nat, width: nat)
    requires n < Pow10(width)
    ensures DecimalValue(PadDigits(n, width)) == n
  {
    if width > 0 {
      var front := PadDigits(n / 10, width - 1);
      var r := PadDigits(n, width);
      PadDigitsValue(n / 10, width - 1);
      assert r[..width - 1] == front;
    }
  }

  /** Every digit string of length `k` is the padded form of its own value. */
  lemma {:induction false} PadDigitsOfValue(s: string)
    requires AllDigits(s)
    ensures PadDigits(DecimalValue(s), |s|) == s
  {
    if |s| > 0 {
      var front := s[..|s| - 1];
      var last := s[|s| - 1];
      PadDigitsOfValue(front);
      DigitCharOfValue(last);
      var n := DecimalValue(s);
      assert n / 10 == DecimalValue(front) && n % 10 == DigitValue(last);
      assert s == front + [last];
    }
  }

  lemma PadOneDigit(n: nat)
    requires n <= 9
    ensures PadDigits(n, 1) == [DigitChar(n)]
  {
    assert PadDigits(n, 1) == PadDigits(0, 0) + [DigitChar(n)];
  }

  lemma PadTwoDigits(n: nat)
    requires n <= 99
    ensures PadDigits(n, 2) == [DigitChar(n / 10), DigitChar(n % 10)]
  {
    PadOneDigit(n / 10);
    assert PadDigits(n, 2) == PadDigits(n / 10, 1) + [DigitChar(n % 10)];
  }

  /** A text starting with two digits starts with the padded form of their value. */
  lemma TwoDigitPrefix(s: string)
    requires |s| >= 2 && IsDigit(s[0]) && IsDigit(s[1])
    ensures s == PadDigits(10 * DigitValue(s[0]) + DigitValue(s[1]), 2) + s[2..]
  {
    var v := 10 * DigitValue(s[0]) + DigitValue(s[1]);
    PadTwoDigits(v);
    assert v / 10 == DigitValue(s[0]) && v % 10 == DigitValue(s[1]);
    DigitCharOfValue(s[0]);
    DigitCharOfValue(s[1]);
    assert s == [s[0], s[1]] + s[2..];
  }

  /** A text starting with a digit starts with the padded form of its value. */
  lemma OneDigitPrefix(s: string)
    requires |s| >= 1 && IsDigit(s[0])
    ensures s == PadDigits(DigitValue(s[0]), 1) + s[1..]
  {
    PadOneDigit(DigitValue(s[0]));
    DigitCharOfValue(s[0]);
    assert s == [s[0]] + s[1..];
  }

  lemma FourDigitValue(s: string)
    requires |s| == 4 && AllDigits(s)
    ensures DecimalValue(s) == 1000 * DigitValue(s[0]) + 100 * DigitValue(s[1]) + 10 * DigitValue(s[2]) + DigitValue(s[3])
  {
    var three := s[..3];
    var two := three[..2];
    var one := two[..1];
    assert one[..0] == [];
    assert DecimalValue(one) == DigitValue(s[0]);
    assert DecimalValue(two) == 10 * DecimalValue(one) + DigitValue(s[1]);
    assert DecimalValue(three) == 10 * DecimalValue(two) + DigitValue(s[2]);
    assert DecimalValue(s) == 10 * DecimalValue(three) + DigitValue(s[3]);
  }

  /** Python's canonical decimal text of a non-negative integer: at least one
      digit and no leading zero unless the number is zero itself. */
  predicate IsCanonical(s: string) {
    |s| >= 1 && AllDigits(s) && (|s| > 1 ==> s[0] != '0')
  }

  /** `str(n)` for a non-negative Python int. */
  function NatToDecimal(n: nat): (r: string)
    ensures IsCanonical(r)
    ensures DecimalValue(r) == n
  {
    if n < 10 then [DigitChar(n)]
    else
      var front := NatToDecimal(n / 10);
      assert (front + [DigitChar(n % 10)])[..|front|] == front;
      front + [DigitChar(n % 10)]
  }

  /** Reads back a canonical decimal text; anything else is rejected. */
  function ParseCanonical(s: string): (r: Option<nat>)
    ensures r.Some? ==> NatToDecimal(r.value) == s
    ensures IsCanonical(s) ==> r.Some?
  {
    if IsCanonical(s) then
      CanonicalRoundTrip(s);
      Some(DecimalValue(s))
    else None
  }

  lemma {:induction false} LeadingDigitPositive(s: string)
    requires |s| >= 1 && AllDigits(s) && s[0] != '0'
    ensures DecimalValue(s) >= Pow10(|s| - 1)
  {
    if |s| > 1 {
      var front := s[..|s| - 1];
      assert front[0] == s[0];
      LeadingDigitPositive(front);
    }
  }

  /** Rendering a canonical text's value gives the text back. */
  lemma {:induction false} CanonicalRoundTrip(s: string)
    requires IsCanonical(s)
    ensures NatToDecimal(DecimalValue(s)) == s
  {
    var n := DecimalValue(s);
    if |s| == 1 {
      DigitCharOfValue(s[0]);
      assert n == DigitValue(s[0]);
    } else {
      var front := s[..|s| - 1];
      var last := s[|s| - 1];
      assert front[0] == s[0];
      LeadingDigitPositive(front);
      CanonicalRoundTrip(front);
      DigitCharOfValue(last);
      assert n == 10 * DecimalValue(front) + DigitValue(last);
      assert n / 10 == DecimalValue(front) && n % 10 == DigitValue(last);
      assert s == front + [last];
    }
  }

  /** `str` is injective on non-negative integers. */
  lemma NatToDecimalInjective(a: nat, b: nat)
    ensures NatToDecimal(a) == NatToDecimal(b) ==> a == b
  {
  }
}

=== FILE: handlers.dfy ===
/** The Flask views of `app.py` as functions from the database and the request
    to the response and the database afterwards. Form fields arrive as strings;
    the two optional history fields may be absent. */
module Handlers {
  import opened Wrappers
  import opened Store
  import opened Search
  import opened DateText
  import opened QrCode
  import SqlText

  const NotFoundMessage := "Equipamento não encontrado"
  const InvalidDateMessage := "Formato de data inválido. Use DD/MM/AAAA."

  /** `url_for("listar_equipamentos")`. */
  const EquipmentListPath := "/equipamentos"

  /** The templates the views render, with the values passed to them. */
  datatype Page =
    | EquipmentList(rows: seq<Equipment>, busca: string)
    | HistoryFormPage(equipId: nat, patrimonio: string)
    | HistoryView(equipment: Equipment, entries: seq<HistoryEntry>)
    | QrView(filename: string)

  datatype Response =
    | Text(status: nat, body: string)   // a `(body, status)` pair returned by a view
    | Redirect(location: string)        // `redirect(...)`: status 302
    | Render(page: Page)                // `render_template(...)`: status 200
    | ServerError(cause: StoreError)    // an exception the view lets escape: status 500

  datatype Reply = Reply(response: Response, db: Database)

  /** The fields `adicionar_historico` reads from its form. */
  datatype HistoryForm = HistoryForm(
    data: string,
    proximaManutencao: string,
    tipoServico: string,
    responsavelExecucao: string,
    responsavelAnalise: string,
    localUso: string,
    historicoDetalhado: Option<string>,
    observacoes: Option<string>)

  predicate KnownId(db: Database, equipId: nat) {
    exists e :: e in db.equipment && e.id == equipId
  }

  // ---------------------------------------------------------------------
  // cadastrar_equipamento (POST)
  // ---------------------------------------------------------------------

  /** Inserts the equipment and redirects to the listing; a taken tag raises
      out of the view, and the failed statement leaves the tables unchanged. */
  function CadastrarEquipamento(db: Database, form: NewEquipment): (r: Reply)
    ensures TagInUse(db.equipment, form.patrimonio) ==>
              r == Reply(ServerError(UniqueViolation("equipamentos.patrimonio")), db)
    ensures !TagInUse(db.equipment, form.patrimonio) ==>
              && r.response == Redirect(EquipmentListPath)
              && |r.db.equipment| == |db.equipment| + 1
              && r.db.equipment[..|db.equipment|] == db.equipment
              && StoredAs(r.db.equipment[|db.equipment|], r.db.equipmentSeq, form)
              && r.db.history == db.history
  {
    match InsertEquipment(db, form)
    case Failure(err) => Reply(ServerError(err), db)
    case Success(after) => Reply(Redirect(EquipmentListPath), after)
  }

  /** Registering the same tag twice: the second attempt fails and changes nothing. */
  lemma RegisterTwiceFails(db: Database, form: NewEquipment)
    requires CadastrarEquipamento(db, form).response.Redirect?
    ensures var once := CadastrarEquipamento(db, form).db;
            CadastrarEquipamento(once, form) == Reply(ServerError(UniqueViolation("equipamentos.patrimonio")), once)
  {
    var once := CadastrarEquipamento(db, form).db;
    assert once.equipment[|db.equipment|].patrimonio == form.patrimonio;
  }

  // ---------------------------------------------------------------------
  // listar_equipamentos
  // ---------------------------------------------------------------------

  /** Reads the table and renders the listing with the lowered term, in
      storage order; a `LIKE` pattern over SQLite's length limit escapes as
      a 500. */
  function ListarEquipamentos(db: Database, busca: Option<string>): (r: Reply)
    ensures r.db == db
    ensures r.response.ServerError? <==> ListingRefused(db.equipment, busca)
    ensures r.response.ServerError? ==> r.response.cause == PatternTooComplex
    ensures r.response.Render? || r.response.ServerError?
    ensures r.response.Render? ==>
              r.response.page == EquipmentList(ListEquipment(db.equipment, busca), SearchTerm(busca))
    ensures SearchTerm(busca) == "" ==> r.response == Render(EquipmentList(db.equipment, ""))
    ensures r.response.Render? ==>
              forall e :: e in r.response.page.rows <==>
                e in db.equipment && (SearchTerm(busca) == "" || LikeMatches(e, SearchTerm(busca)))
  {
    if ListingRefused(db.equipment, busca) then Reply(ServerError(PatternTooComplex), db)
    else Reply(Render(EquipmentList(ListEquipment(db.equipment, busca), SearchTerm(busca))), db)
  }

  /** Registering a row keeps the listing in storage order: the new row is
      listed after all the others, when it matches, whenever the listing
      renders. */
  lemma ListingShowsNewRowLast(db: Database, e: Equipment, busca: Option<string>)
    ensures var before := ListarEquipamentos(db, busca).response;
            var after := ListarEquipamentos(db.(equipment := db.equipment + [e]), busca).response;
            after.Render? ==>
              before.Render? &&
              after.page.rows == before.page.rows
                                 + (if SearchTerm(busca) == "" || LikeMatches(e, SearchTerm(busca)) then [e] else [])
  {
    ListingAppend(db.equipment, e, busca);
  }

  /** Whenever the term has no wildcard and no row holds a Latin-1 capital,
      the listing page shows the case-insensitive substring matches, in
      storage order. */
  lemma ListingPageIsSubstringSearch(db: Database, busca: Option<string>)
    requires SqlText.NoWildcards(SearchTerm(busca))
    requires forall i :: 0 <= i < |db.equipment| ==> RowLowersAlike(db.equipment[i])
    ensures ListarEquipamentos(db, busca).response.Render? ==>
              ListarEquipamentos(db, busca).response.page.rows == SubstringSearch(db.equipment, busca)
  {
    ListingIsSubstringSearch(db.equipment, busca);
  }

  // ---------------------------------------------------------------------
  // adicionar_historico (GET and POST)
  // ---------------------------------------------------------------------

  /** The form page, showing the equipment's tag, or 404 for an unknown id.
      An id too large to bind makes the lookup raise: status 500. */
  function AdicionarHistoricoForm(db: Database, equipId: nat): (r: Response)
    ensures r.ServerError? <==> !Bindable(equipId)
    ensures r.ServerError? ==> r.cause == IntegerOverflow
    ensures r.Text? <==> Bindable(equipId) && !KnownId(db, equipId)
    ensures r.Text? ==> r == Text(404, NotFoundMessage)
    ensures r.Text? || r.Render? || r.ServerError?
    ensures r.Render? ==> r.page.HistoryFormPage? && r.page.equipId == equipId
    ensures r.Render? ==> exists e :: e in db.equipment && e.id == equipId && e.patrimonio == r.page.patrimonio
  {
    if !Bindable(equipId) then ServerError(IntegerOverflow)
    else match FindEquipment(db.equipment, equipId)
    case None => Text(404, NotFoundMessage)
    case Some(e) => Render(HistoryFormPage(equipId, e.patrimonio))
  }

  /** Python's truth value of what `converter_data` returned. */
  predicate Truthy(v: Option<string>) {
    v.Some? && v.value != ""
  }

  /** `not data` tests exactly for a failed conversion: a converted date is
      never the empty string. */
  lemma ConvertedDateTruthy(s: string)
    ensures Truthy(ConvertDate(s)) <==> ConvertDate(s).Some?
  {
  }

  /** `entry` holds what the form asked for against `equipId`: the converted
      dates, the text fields as typed and `""` for an absent optional field. */
  predicate Records(entry: HistoryEntry, equipId: nat, form: HistoryForm) {
    && entry.equipamentoId == equipId
    && ConvertDate(form.data) == Some(entry.data)
    && ConvertDate(form.proximaManutencao) == Some(entry.proximaManutencao)
    && entry.tipoServico == form.tipoServico
    && entry.responsavelExecucao == form.responsavelExecucao
    && entry.responsavelAnalise == form.responsavelAnalise
    && entry.localUso == form.localUso
    && entry.historicoDetalhado == (if form.historicoDetalhado.Some? then form.historicoDetalhado.value else "")
    && entry.observacoes == (if form.observacoes.Some? then form.observacoes.value else "")
  }

  /** The row written for a form whose two dates converted to `data` and `proxima`. */
  function EntryFields(equipId: nat, data: string, proxima: string, form: HistoryForm): NewHistory {
    NewHistory(equipId, data, form.tipoServico, form.responsavelExecucao,
               form.responsavelAnalise, proxima, form.localUso,
               form.historicoDetalhado.GetOr(""), form.observacoes.GetOr(""))
  }

  /** The submission: 500 for an id too large to bind and 404 for an unknown
      id, both before any date is looked at, then 400 when either date does
      not convert, otherwise one history row is appended and the browser is
      sent to the history page. */
  function AdicionarHistorico(db: Database, equipId: nat, form: HistoryForm): (r: Reply)
    ensures !Bindable(equipId) ==> r == Reply(ServerError(IntegerOverflow), db)
    ensures Bindable(equipId) && !KnownId(db, equipId) ==> r == Reply(Text(404, NotFoundMessage), db)
    ensures Bindable(equipId) && KnownId(db, equipId)
            && (ConvertDate(form.data).None? || ConvertDate(form.proximaManutencao).None?) ==>
              r == Reply(Text(400, InvalidDateMessage), db)
    ensures r.response.Redirect? <==>
              Bindable(equipId) && KnownId(db, equipId)
              && ConvertDate(form.data).Some? && ConvertDate(form.proximaManutencao).Some?
    ensures r.response.Redirect? ==>
              && r.response.location == HistoryPath(equipId)
              && r.db.equipment == db.equipment
              && |r.db.history| == |db.history| + 1
              && r.db.history[..|db.history|] == db.history
              && Records(r.db.history[|db.history|], equipId, form)
    ensures r.response.Redirect? ==>
              r.db == InsertHistory(db, EntryFields(equipId, ConvertDate(form.data).value,
                                                    ConvertDate(form.proximaManutencao).value, form))
  {
    if !Bindable(equipId) then Reply(ServerError(IntegerOverflow), db)
    else match FindEquipment(db.equipment, equipId)
    case None => Reply(Text(404, NotFoundMessage), db)
    case Some(_) =>
      var data := ConvertDate(form.data);
      var proxima := ConvertDate(form.proximaManutencao);
      if !Truthy(data) || !Truthy(proxima) then
        Reply(Text(400, InvalidDateMessage), db)
      else
        Reply(Redirect(HistoryPath(equipId)), InsertHistory(db, EntryFields(equipId, data.value, proxima.value, form)))
  }

  /** The example of an impossible date: 31 February is refused with 400. */
  lemma ImpossibleDateRefused(db: Database, equipId: nat, form: HistoryForm)
    requires Bindable(equipId) && KnownId(db, equipId) && form.data == "31/02/2024"
    ensures AdicionarHistorico(db, equipId, form) == Reply(Text(400, InvalidDateMessage), db)
  {
    RejectsDayPastMonthEnd();
  }

  // ---------------------------------------------------------------------
  // historico_equipamento
  // ---------------------------------------------------------------------

  /** The equipment and all its history entries in storage order, or 404;
      500 when the id is too large to bind. */
  function HistoricoEquipamento(db: Database, equipId: nat): (r: Response)
    ensures r.Text? || r.Render? || r.ServerError?
    ensures r.ServerError? <==> !Bindable(equipId)
    ensures r.ServerError? ==> r.cause == IntegerOverflow
    ensures r.Text? <==> Bindable(equipId) && !KnownId(db, equipId)
    ensures r.Text? ==> r == Text(404, NotFoundMessage)
    ensures r.Render? ==> r.page.HistoryView? && r.page.equipment in db.equipment && r.page.equipment.id == equipId
    ensures r.Render? ==> forall h :: h in r.page.entries <==> h in db.history && h.equipamentoId == equipId
  {
    var entries := EntriesFor(db.history, equipId);
    if !Bindable(equipId) then ServerError(IntegerOverflow)
    else match FindEquipment(db.equipment, equipId)
    case None => Text(404, NotFoundMessage)
    case Some(e) => Render(HistoryView(e, entries))
  }

  /** After a successful submission the history page shows the old entries
      followed by the new one. */
  lemma AddedEntryShownLast(db: Database, equipId: nat, form: HistoryForm)
    ensures var r := AdicionarHistorico(db, equipId, form);
            var before := HistoricoEquipamento(db, equipId);
            r.response.Redirect? ==>
              before.Render? &&
              HistoricoEquipamento(r.db, equipId) ==
                Render(HistoryView(before.page.equipment, before.page.entries + [r.db.history[|db.history|]]))
  {
    var r := AdicionarHistorico(db, equipId, form);
    if r.response.Redirect? {
      assert r.db.history == db.history + [r.db.history[|db.history|]];
      EntriesForAppend(db.history, r.db.history[|db.history|], equipId);
    }
  }

  /** A submission for one equipment does not change any other equipment's page. */
  lemma OtherHistoriesUnchanged(db: Database, equipId: nat, other: nat, form: HistoryForm)
    requires other != equipId
    ensures HistoricoEquipamento(AdicionarHistorico(db, equipId, form).db, other) == HistoricoEquipamento(db, other)
  {
    if AdicionarHistorico(db, equipId, form).response.Redirect? {
      InsertHistoryOtherEntries(db, EntryFields(equipId, ConvertDate(form.data).value,
                                                ConvertDate(form.proximaManutencao).value, form), other);
    }
  }

  /** Registering keeps the tables consistent: SQLite's guarantees hold and
      no history entry names a missing equipment. */
  lemma RegisterKeepsInvariant(db: Database, form: NewEquipment)
    requires WellFormed(db) && NoOrphans(db)
    ensures var r := CadastrarEquipamento(db, form).db; WellFormed(r) && NoOrphans(r)
  {
    if !TagInUse(db.equipment, form.patrimonio) {
      InsertEquipmentKeepsInvariant(db, form);
      InsertEquipmentKeepsNoOrphans(db, form);
    }
  }

  /** Adding history keeps the tables consistent: the id is checked before
      the row is written, so the new entry names an existing equipment. */
  lemma AddHistoryKeepsInvariant(db: Database, equipId: nat, form: HistoryForm)
    requires WellFormed(db) && NoOrphans(db)
    ensures var r := AdicionarHistorico(db, equipId, form).db; WellFormed(r) && NoOrphans(r)
  {
    if AdicionarHistorico(db, equipId, form).response.Redirect? {
      var fields := EntryFields(equipId, ConvertDate(form.data).value,
                                ConvertDate(form.proximaManutencao).value, form);
      InsertHistoryKeepsInvariant(db, fields);
      InsertHistoryKeepsNoOrphans(db, fields);
    }
  }

  /** The requests that write: the two `POST` views. The other views only read. */
  datatype Request =
    | Register(equipment: NewEquipment)
    | AddHistory(equipId: nat, form: HistoryForm)

  function Apply(db: Database, req: Request): Database {
    match req
    case Register(equipment) => CadastrarEquipamento(db, equipment).db
    case AddHistory(equipId, form) => AdicionarHistorico(db, equipId, form).db
  }

  /** The database after serving `reqs` in order, starting from the empty file. */
  function Replay(reqs: seq<Request>): Database {
    if |reqs| == 0 then EmptyDatabase
    else Apply(Replay(reqs[..|reqs| - 1]), reqs[|reqs| - 1])
  }

  /** Whatever the writing views are asked, in whatever order, the tables stay
      consistent: SQLite's guarantees hold and no entry is orphaned. */
  lemma {:induction false} ReplayConsistent(reqs: seq<Request>)
    ensures WellFormed(Replay(reqs)) && NoOrphans(Replay(reqs))
  {
    if |reqs| == 0 {
      EmptyDatabaseConsistent();
    } else {
      var before := Replay(reqs[..|reqs| - 1]);
      ReplayConsistent(reqs[..|reqs| - 1]);
      match reqs[|reqs| - 1]
      case Register(equipment) => RegisterKeepsInvariant(before, equipment);
      case AddHistory(equipId, form) => AddHistoryKeepsInvariant(before, equipId, form);
    }
  }

  /** Newly registered equipment has an empty history page, not an error,
      whenever its id fits in SQLite's 64 bits. */
  lemma NewEquipmentHasEmptyHistory(db: Database, form: NewEquipment)
    requires WellFormed(db) && NoOrphans(db)
    requires !TagInUse(db.equipment, form.patrimonio)
    ensures var after := CadastrarEquipamento(db, form).db;
            var row := after.equipment[|db.equipment|];
            HistoricoEquipamento(after, row.id)
              == if Bindable(row.id) then Render(HistoryView(row, [])) else ServerError(IntegerOverflow)
  {
    var after := CadastrarEquipamento(db, form).db;
    var row := after.equipment[|db.equipment|];
    RegisteredRowFound(db, form);
    NoEntriesForFreshId(db, row.id);
  }

  /** The row just registered is the one found under its id, and that id is
      past the counter's old value. */
  lemma RegisteredRowFound(db: Database, form: NewEquipment)
    requires WellFormed(db)
    requires !TagInUse(db.equipment, form.patrimonio)
    ensures var after := CadastrarEquipamento(db, form).db;
            var row := after.equipment[|db.equipment|];
            && FindEquipment(after.equipment, row.id) == Some(row)
            && row.id > db.equipmentSeq
            && after.history == db.history
  {
    var after := CadastrarEquipamento(db, form).db;
    assert after == InsertEquipment(db, form).value;
    InsertEquipmentKeepsInvariant(db, form);
    var row := after.equipment[|db.equipment|];
    FindEquipmentUnique(after, row.id, row);
  }

  // ---------------------------------------------------------------------
  // gerar_qr
  // ---------------------------------------------------------------------

  /** Saves the QR image of the id's history link and renders the page naming
      the file. The id is not looked up: any id gets an image. */
  function GerarQr(folder: QrFolder, equipId: nat): (r: (Response, QrFolder))
    ensures r.0.Render? && r.0.page.QrView?
    ensures r.0.page.filename == QrFilename(equipId)
    ensures r.1.Keys == folder.Keys + {r.0.page.filename}
    ensures r.1[r.0.page.filename] == QrUrl(equipId)
    ensures IdFromQrUrl(r.1[r.0.page.filename]) == Some(equipId)
    ensures forall name :: name in folder && name != r.0.page.filename ==> r.1[name] == folder[name]
  {
    QrUrlRoundTrip(equipId);
    (Render(QrView(QrFilename(equipId))), SaveQr(folder, equipId))
  }

  /** Generating twice for id 7 names the same file both times, and the file
      leads back to the history page of 7. */
  lemma GerarQrTwice(folder: QrFolder)
    ensures var (page1, once) := GerarQr(folder, 7);
            var (page2, twice) := GerarQr(once, 7);
            page1 == page2 == Render(QrView("qr_7.png")) && twice == once
            && twice["qr_7.png"] == "http://192.168.1.151:5000/historico/7"
  {
    QrExample();
    SaveQrIdempotent(folder, 7);
  }
}

=== FILE: qr_code.dfy ===
/** `gerar_qr`: the deep link a QR image encodes and the file it is saved to.
    The image itself is represented by the text it encodes. */
module QrCode {
  import opened Wrappers
  import opened Decimal

  /** The fixed address written into every link, whatever host serves the request. */
  const LinkOrigin := "http://192.168.1.151:5000"

  /** The path of the history page of `equipId`, the `/historico/<int:equip_id>` route. */
  function HistoryPath(equipId: nat): (path: string)
    ensures |path| > 11 && path[..11] == "/historico/"
    ensures ParseCanonical(path[11..]) == Some(equipId)
  {
    var path := "/historico/" + NatToDecimal(equipId);
    assert path[11..] == NatToDecimal(equipId);
    CanonicalRoundTrip(NatToDecimal(equipId));
    path
  }

  /** The URL encoded in the QR image of `equipId`. */
  function QrUrl(equipId: nat): (url: string)
    ensures |url| > |LinkOrigin|
    ensures url[..|LinkOrigin|] == LinkOrigin && url[|LinkOrigin|..] == HistoryPath(equipId)
  {
    var url := LinkOrigin + HistoryPath(equipId);
    assert url[..|LinkOrigin|] == LinkOrigin && url[|LinkOrigin|..] == HistoryPath(equipId);
    url
  }

  /** The name the QR image is saved under in `static/qr_codes`. */
  function QrFilename(equipId: nat): (name: string)
    ensures |name| >= 8
    ensures name[..3] == "qr_" && name[|name| - 4..] == ".png"
    ensures name[3..|name| - 4] == NatToDecimal(equipId)
  {
    var name := "qr_" + NatToDecimal(equipId) + ".png";
    assert name[..3] == "qr_" && name[|name| - 4..] == ".png" && name[3..|name| - 4] == NatToDecimal(equipId);
    name
  }

  /** What a scanner recovers from a link: the equipment id it points at. */
  function IdFromQrUrl(url: string): (r: Option<nat>)
  {
    var prefix := LinkOrigin + "/historico/";
    if |url| < |prefix| || url[..|prefix|] != prefix then None
    else ParseCanonical(url[|prefix|..])
  }

  /** Scanning the image of `equipId` leads back to `equipId`. */
  lemma QrUrlRoundTrip(equipId: nat)
    ensures IdFromQrUrl(QrUrl(equipId)) == Some(equipId)
  {
    var prefix := LinkOrigin + "/historico/";
    var url := QrUrl(equipId);
    assert url == prefix + NatToDecimal(equipId);
    assert url[..|prefix|] == prefix && url[|prefix|..] == NatToDecimal(equipId);
    CanonicalRoundTrip(NatToDecimal(equipId));
  }

  /** Every link a scanner accepts is the link of the id it yields. */
  lemma QrUrlFromId(url: string)
    requires IdFromQrUrl(url).Some?
    ensures QrUrl(IdFromQrUrl(url).value) == url
  {
    var prefix := LinkOrigin + "/historico/";
    assert url == prefix + url[|prefix|..];
  }

  /** Distinct ids never share an image file. */
  lemma QrFilenameInjective(a: nat, b: nat)
    ensures QrFilename(a) == QrFilename(b) ==> a == b
  {
    if QrFilename(a) == QrFilename(b) {
      CanonicalRoundTrip(NatToDecimal(a));
      CanonicalRoundTrip(NatToDecimal(b));
    }
  }

  /** The QR directory: file name to the text its image encodes. */
  type QrFolder = map<string, string>

  /** `qr.save(qr_path)`: writes the file of `equipId`, replacing any earlier one. */
  function SaveQr(folder: QrFolder, equipId: nat): (r: QrFolder)
    ensures r.Keys == folder.Keys + {QrFilename(equipId)}
    ensures r[QrFilename(equipId)] == QrUrl(equipId)
    ensures forall name :: name in folder && name != QrFilename(equipId) ==> r[name] == folder[name]
  {
    folder[QrFilename(equipId) := QrUrl(equipId)]
  }

  /** Generating the same code twice leaves the same folder as generating it once. */
  lemma SaveQrIdempotent(folder: QrFolder, equipId: nat)
    ensures SaveQr(SaveQr(folder, equipId), equipId) == SaveQr(folder, equipId)
  {
  }

  /** Generating the code of one id never touches the file of another. */
  lemma SaveQrKeepsOtherIds(folder: QrFolder, a: nat, b: nat)
    requires a != b && QrFilename(a) in folder
    ensures SaveQr(folder, b)[QrFilename(a)] == folder[QrFilename(a)]
  {
    QrFilenameInjective(a, b);
  }

  lemma QrExample()
    ensures QrUrl(7) == "http://192.168.1.151:5000/historico/7"
    ensures QrFilename(7) == "qr_7.png"
  {
  }
}

=== FILE: schema.dfy ===
/** `init_db`: the start-up migration, over the set of column names of each
    table. `CREATE TABLE` and `ALTER TABLE` run outside a transaction in
    Python's `sqlite3`, so each step is visible to the next column check. */
module Schema {

  /** Table name to its column names. */
  type Tables = map<string, set<string>>

  const EquipmentTable := "equipamentos"
  const HistoryTable := "historico"

  /** Columns of `equipamentos` as the `CREATE TABLE` statement declares them. */
  const EquipmentColumns: set<string> :=
    {"id", "patrimonio", "nome", "modelo", "marca", "fabricante", "numero_serie"}

  /** Columns of `historico` as the `CREATE TABLE` statement declares them. */
  const HistoryColumns: set<string> :=
    {"id", "equipamento_id", "data", "tipo_servico", "responsavel_execucao",
     "responsavel_analise", "proxima_manutencao", "local_uso",
     "historico_detalhado", "observacoes"}

  /** The columns the migration adds to both tables when missing. */
  const NoteColumns: set<string> := {"historico_detalhado", "observacoes"}

  /** `CREATE TABLE IF NOT EXISTS`: an existing table is left exactly as it is. */
  function CreateTableIfNotExists(s: Tables, table: string, columns: set<string>): (r: Tables)
    ensures r.Keys == s.Keys + {table}
    ensures table in s ==> r == s
    ensures table !in s ==> r[table] == columns && forall t :: t in s ==> r[t] == s[t]
  {
    if table in s then s else s[table := columns]
  }

  /** `coluna_existe` followed, when it answers no, by `ALTER TABLE ... ADD COLUMN`. */
  function AddColumnIfMissing(s: Tables, table: string, column: string): (r: Tables)
    requires table in s
    ensures r.Keys == s.Keys
    ensures r[table] == s[table] + {column}
    ensures forall t :: t in s && t != table ==> r[t] == s[t]
  {
    if column in s[table] then s else s[table := s[table] + {column}]
  }

  /** The two column checks `init_db` makes for one table. */
  function AddNoteColumns(s: Tables, table: string): (r: Tables)
    requires table in s
    ensures r.Keys == s.Keys
    ensures r[table] == s[table] + NoteColumns
    ensures forall t :: t in s && t != table ==> r[t] == s[t]
  {
    var s1 := AddColumnIfMissing(s, table, "historico_detalhado");
    AddColumnIfMissing(s1, table, "observacoes")
  }

  lemma TableNamesDiffer()
    ensures EquipmentTable != HistoryTable
  {
    assert EquipmentTable[0] != HistoryTable[0];
  }

  /** The two `CREATE TABLE IF NOT EXISTS` statements. */
  function CreateTables(s: Tables): (r: Tables)
    ensures r.Keys == s.Keys + {EquipmentTable, HistoryTable}
    ensures r[EquipmentTable] == if EquipmentTable in s then s[EquipmentTable] else EquipmentColumns
    ensures r[HistoryTable] == if HistoryTable in s then s[HistoryTable] else HistoryColumns
    ensures forall t :: t in s ==> r[t] == s[t]
  {
    TableNamesDiffer();
    CreateTableIfNotExists(CreateTableIfNotExists(s, EquipmentTable, EquipmentColumns),
                           HistoryTable, HistoryColumns)
  }

  /** `init_db`: create what is missing, then add the note columns where missing. */
  function InitDb(s: Tables): (r: Tables)
    ensures r.Keys == s.Keys + {EquipmentTable, HistoryTable}
    ensures NoteColumns <= r[EquipmentTable] && NoteColumns <= r[HistoryTable]
  {
    TableNamesDiffer();
    AddNoteColumns(AddNoteColumns(CreateTables(s), EquipmentTable), HistoryTable)
  }

  /** After the migration each of the two tables has the columns it was
      created with, or had before, plus the notes. */
  lemma InitDbColumns(s: Tables)
    ensures var r := InitDb(s);
            && r[EquipmentTable] == (if EquipmentTable in s then s[EquipmentTable] else EquipmentColumns) + NoteColumns
            && r[HistoryTable] == (if HistoryTable in s then s[HistoryTable] else HistoryColumns) + NoteColumns
  {
    TableNamesDiffer();
  }

  /** The migration never drops a column, and touches no other table. */
  lemma InitDbKeepsColumns(s: Tables)
    ensures var r := InitDb(s);
            && (forall t :: t in s && t != EquipmentTable && t != HistoryTable ==> r[t] == s[t])
            && (forall t :: t in s ==> s[t] <= r[t])
  {
    TableNamesDiffer();
  }

  /** Running the migration on every start is harmless: a second run changes nothing. */
  lemma InitDbIdempotent(s: Tables)
    ensures InitDb(InitDb(s)) == InitDb(s)
  {
    var once := InitDb(s);
    var twice := InitDb(once);
    InitDbColumns(s);
    InitDbColumns(once);
    InitDbKeepsColumns(once);
    assert twice.Keys == once.Keys;
    forall t | t in twice
      ensures twice[t] == once[t]
    {
    }
  }

  /** On an empty file the migration creates both tables with all their columns. */
  lemma InitDbOnEmptyFile()
    ensures InitDb(map[]) == map[EquipmentTable := EquipmentColumns + NoteColumns,
                                 HistoryTable := HistoryColumns]
  {
    var r := InitDb(map[]);
    InitDbColumns(map[]);
    assert HistoryColumns + NoteColumns == HistoryColumns;
    assert r.Keys == {EquipmentTable, HistoryTable};
  }
}

=== FILE: search.dfy ===
/** `listar_equipamentos`: the optional `busca` term, lowered by Python, matched
    with `LIKE '%term%'` against the SQLite-lowered tag, name and model. */
module Search {
  import opened Wrappers
  import opened Seqs
  import opened SqlText
  import opened Store

  /** `request.args.get("busca", "").lower()`. */
  function SearchTerm(busca: Option<string>): (term: string)
    ensures busca.None? ==> term == ""
    ensures busca.Some? ==> |term| == |busca.value|
    ensures busca.Some? ==> forall i :: 0 <= i < |term| ==> term[i] == PyLowerChar(busca.value[i])
    ensures forall i :: 0 <= i < |term| ==> !IsAsciiUpper(term[i])
  {
    PyLower(busca.GetOr(""))
  }

  /** The `WHERE` clause: `LOWER(col) LIKE '%term%'` on any of the three columns. */
  predicate LikeMatches(e: Equipment, term: string)
    ensures NoWildcards(term) ==>
              (LikeMatches(e, term) <==>
                 FoldContains(SqlLower(e.patrimonio), term) || FoldContains(SqlLower(e.nome), term)
                 || FoldContains(SqlLower(e.modelo), term))
  {
    var pattern := "%" + term + "%";
    var found := Like(pattern, SqlLower(e.patrimonio)) || Like(pattern, SqlLower(e.nome)) || Like(pattern, SqlLower(e.modelo));
    if NoWildcards(term) then
      LikeContains(term, SqlLower(e.patrimonio));
      LikeContains(term, SqlLower(e.nome));
      LikeContains(term, SqlLower(e.modelo));
      found
    else found
  }

  /** The rows the listing shows: the whole table for an empty term,
      otherwise the rows the `WHERE` clause selects, in rowid order. */
  function ListEquipment(rows: seq<Equipment>, busca: Option<string>): (r: seq<Equipment>)
    ensures SearchTerm(busca) == "" ==> r == rows
    ensures forall e :: e in r <==> e in rows && (SearchTerm(busca) == "" || LikeMatches(e, SearchTerm(busca)))
  {
    var term := SearchTerm(busca);
    if term == "" then rows
    else Filter(rows, (e: Equipment) => LikeMatches(e, term))
  }

  /** The pattern the listing binds three times: `f"%{termo_busca}%"`. */
  function LikeTerm(term: string): (pattern: string)
    ensures |pattern| == |term| + 2 && pattern[1..|pattern| - 1] == term
    ensures pattern[0] == '%' && pattern[|pattern| - 1] == '%'
    ensures Utf8Length(pattern) == Utf8Length(term) + 2
  {
    Utf8LengthConcat("%", term);
    Utf8LengthConcat("%" + term, "%");
    "%" + term + "%"
  }

  /** The listing query fails: the term is not empty, so the `LIKE` query
      runs; the table has a row, so `LIKE` is evaluated; and the pattern is
      longer in bytes than SQLite allows. */
  predicate ListingRefused(rows: seq<Equipment>, busca: Option<string>) {
    SearchTerm(busca) != "" && rows != [] && Utf8Length(LikeTerm(SearchTerm(busca))) > MaxLikePatternLength
  }

  /** A term of at most 12,499 characters is never refused: no character
      takes more than four bytes. */
  lemma ShortTermNeverRefused(rows: seq<Equipment>, busca: Option<string>)
    requires busca.Some? ==> |busca.value| <= 12499
    ensures !ListingRefused(rows, busca)
  {
  }

  /** A term of 49,999 ASCII characters or more is refused on any table with
      a row: with the two `%` the pattern is at least 50,001 bytes. */
  lemma LongAsciiTermRefused(rows: seq<Equipment>, busca: Option<string>)
    requires rows != [] && busca.Some? && |busca.value| >= 49999
    requires forall i :: 0 <= i < |busca.value| ==> busca.value[i] < '\U{80}'
    ensures ListingRefused(rows, busca)
  {
    var term := SearchTerm(busca);
    forall i | 0 <= i < |term|
      ensures term[i] < '\U{80}'
    {
      assert term[i] == PyLowerChar(busca.value[i]);
    }
  }

  // ---------------------------------------------------------------------
  // Reference: a case-insensitive substring search.
  // ---------------------------------------------------------------------

  /** The term occurs in the Python-lowered tag, name or model. */
  predicate TextMatches(e: Equipment, term: string) {
    Contains(PyLower(e.patrimonio), term) || Contains(PyLower(e.nome), term) || Contains(PyLower(e.modelo), term)
  }

  /** A case-insensitive substring search over the same three columns. */
  function SubstringSearch(rows: seq<Equipment>, busca: Option<string>): (r: seq<Equipment>)
    ensures forall e :: e in r <==> e in rows && TextMatches(e, SearchTerm(busca))
  {
    Filter(rows, (e: Equipment) => TextMatches(e, SearchTerm(busca)))
  }

  /** Python's and SQLite's lowering agree on every character of `s`
      (true of any text without Latin-1 capitals). */
  predicate LowersAlike(s: string) {
    forall i :: 0 <= i < |s| ==> PyLowerChar(s[i]) == SqlLowerChar(s[i])
  }

  predicate RowLowersAlike(e: Equipment) {
    LowersAlike(e.patrimonio) && LowersAlike(e.nome) && LowersAlike(e.modelo)
  }

  lemma EmptyTermMatchesAll(t: string)
    ensures Contains(t, "")
  {
    assert t[0..0] == "";
    assert MatchAt(t, "", 0);
  }

  /** On one column: `LOWER(col) LIKE '%term%'` is substring search when the
      term has no wildcards and the column lowers alike in both languages. */
  lemma ColumnLikeIsContains(col: string, term: string)
    requires NoWildcards(term) && LowersAlike(col)
    requires forall i :: 0 <= i < |term| ==> !IsAsciiUpper(term[i])
    ensures Like("%" + term + "%", SqlLower(col)) <==> Contains(PyLower(col), term)
  {
    var low := SqlLower(col);
    var py := PyLower(col);
    assert low == py;
    LikeContains(term, low);
    forall i | 0 <= i <= |low| - |term|
      ensures FoldMatchAt(low, term, i) <==> MatchAt(py, term, i)
    {
      var w := low[i..i + |term|];
      if FoldEq(term, w) {
        forall k | 0 <= k < |term|
          ensures term[k] == w[k]
        {
          assert SqlLowerChar(term[k]) == SqlLowerChar(w[k]);
          assert w[k] == low[i + k];
        }
      }
    }
    if FoldContains(low, term) {
      var i :| 0 <= i <= |low| - |term| && FoldMatchAt(low, term, i);
      assert MatchAt(py, term, i);
    }
    if Contains(py, term) {
      var i :| 0 <= i <= |py| - |term| && MatchAt(py, term, i);
      assert FoldMatchAt(low, term, i);
    }
  }

  /** When the term holds no `%` or `_` and no listed column holds a Latin-1
      capital, the listing is exactly the case-insensitive substring search. */
  lemma ListingIsSubstringSearch(rows: seq<Equipment>, busca: Option<string>)
    requires NoWildcards(SearchTerm(busca))
    requires forall i :: 0 <= i < |rows| ==> RowLowersAlike(rows[i])
    ensures ListEquipment(rows, busca) == SubstringSearch(rows, busca)
  {
    var term := SearchTerm(busca);
    assert forall i :: 0 <= i < |term| ==> !IsAsciiUpper(term[i]);
    if term == "" {
      forall i | 0 <= i < |rows|
        ensures TextMatches(rows[i], term)
      {
        EmptyTermMatchesAll(PyLower(rows[i].patrimonio));
      }
      FilterKeepsAll(rows, (e: Equipment) => TextMatches(e, SearchTerm(busca)));
    } else {
      forall i | 0 <= i < |rows|
        ensures LikeMatches(rows[i], term) == TextMatches(rows[i], term)
      {
        ColumnLikeIsContains(rows[i].patrimonio, term);
        ColumnLikeIsContains(rows[i].nome, term);
        ColumnLikeIsContains(rows[i].modelo, term);
      }
      FilterCongruent(rows, (e: Equipment) => LikeMatches(e, term), (e: Equipment) => TextMatches(e, SearchTerm(busca)));
    }
  }

  /** The listing keeps storage order: a row stored after the others is
      listed after them, when it is listed at all. */
  lemma ListingAppend(rows: seq<Equipment>, e: Equipment, busca: Option<string>)
    ensures ListEquipment(rows + [e], busca) ==
            ListEquipment(rows, busca) + (if SearchTerm(busca) == "" || LikeMatches(e, SearchTerm(busca)) then [e] else [])
  {
    var term := SearchTerm(busca);
    if term != "" {
      FilterAppend(rows, [e], (x: Equipment) => LikeMatches(x, term));
      assert Filter([e], (x: Equipment) => LikeMatches(x, term))
          == (if LikeMatches(e, term) then [e] else []) + Filter([e][1..], (x: Equipment) => LikeMatches(x, term));
    }
  }

  /** The listing of a one-row table: the row or nothing. */
  lemma ListingOfOneRow(e: Equipment, busca: Option<string>)
    requires SearchTerm(busca) != ""
    ensures ListEquipment([e], busca) == if LikeMatches(e, SearchTerm(busca)) then [e] else []
  {
    var r := ListEquipment([e], busca);
    if r != [] {
      assert r[0] in r;
    }
  }

  /** The reference search over a one-row table: the row or nothing. */
  lemma SearchOfOneRow(e: Equipment, busca: Option<string>)
    ensures SubstringSearch([e], busca) == if TextMatches(e, SearchTerm(busca)) then [e] else []
  {
    var r := SubstringSearch([e], busca);
    if r != [] {
      assert r[0] in r;
    }
  }

  /** `_` in the term is a `LIKE` wildcard: searching for "_" lists a row
      none of whose columns contains an underscore. */
  lemma UnderscoreTermListsUnrelatedRow()
    ensures var e := Equipment(1, "PC-01", "Monitor", "M1", "", "", "", None, None);
            ListEquipment([e], Some("_")) == [e] && SubstringSearch([e], Some("_")) == []
  {
    var e := Equipment(1, "PC-01", "Monitor", "M1", "", "", "", None, None);
    UnderscoreTerm();
    UnderscoreRowLikes(e);
    UnderscoreRowHasNoUnderscore(e);
    ListingOfOneRow(e, Some("_"));
    SearchOfOneRow(e, Some("_"));
  }

  lemma UnderscoreTerm()
    ensures SearchTerm(Some("_")) == "_"
  {
  }

  lemma UnderscoreRowLikes(e: Equipment)
    requires e.patrimonio == "PC-01"
    ensures LikeMatches(e, "_")
  {
    assert SqlLower("PC-01") == "pc-01";
    UnderscoreMatchesAnyCharacter();
  }

  lemma UnderscoreRowHasNoUnderscore(e: Equipment)
    requires e.patrimonio == "PC-01" && e.nome == "Monitor" && e.modelo == "M1"
    ensures !TextMatches(e, "_")
  {
    NoUnderscoreIn(PyLower("PC-01"));
    NoUnderscoreIn(PyLower("Monitor"));
    NoUnderscoreIn(PyLower("M1"));
  }

  lemma NoUnderscoreIn(t: string)
    requires forall i :: 0 <= i < |t| ==> t[i] != '_'
    ensures !Contains(t, "_")
  {
    forall i | 0 <= i <= |t| - 1
      ensures !MatchAt(t, "_", i)
    {
      assert t[i..i + 1][0] == t[i];
    }
  }

  /** A Latin-1 capital defeats the search: Python lowers the term's `É`, SQLite
      leaves the column's `É` alone and `LIKE` folds only ASCII, so searching
      for a name exactly as stored does not list it. */
  lemma AccentedNameNotFoundByItself()
    ensures var e := Equipment(1, "PC-01", "\U{C9}CRAN", "M1", "", "", "", None, None);
            ListEquipment([e], Some("\U{C9}CRAN")) == [] && SubstringSearch([e], Some("\U{C9}CRAN")) == [e]
  {
    var e := Equipment(1, "PC-01", "\U{C9}CRAN", "M1", "", "", "", None, None);
    AccentedTerm();
    AccentedRowText(e);
    AccentedRowNoLike(e);
    ListingOfOneRow(e, Some("\U{C9}CRAN"));
    SearchOfOneRow(e, Some("\U{C9}CRAN"));
  }

  lemma AccentedTerm()
    ensures SearchTerm(Some("\U{C9}CRAN")) == "\U{E9}cran"
  {
  }

  lemma AccentedRowText(e: Equipment)
    requires e.nome == "\U{C9}CRAN"
    ensures TextMatches(e, "\U{E9}cran")
  {
    assert PyLower(e.nome) == "\U{E9}cran";
    assert MatchAt(PyLower(e.nome), "\U{E9}cran", 0);
  }

  lemma AccentedRowNoLike(e: Equipment)
    requires e.patrimonio == "PC-01" && e.nome == "\U{C9}CRAN" && e.modelo == "M1"
    ensures !LikeMatches(e, "\U{E9}cran")
  {
    var term := "\U{E9}cran";
    assert NoWildcards(term);
    NoLikeIn(term, "PC-01", "pc-01");
    NoLikeIn(term, "\U{C9}CRAN", "\U{C9}cran");
    NoLikeIn(term, "M1", "m1");
  }

  /** The term is not found in a column whose SQLite-lowered text is `low`. */
  lemma NoLikeIn(term: string, col: string, low: string)
    requires term == "\U{E9}cran" && SqlLower(col) == low
    requires low == "pc-01" || low == "\U{C9}cran" || low == "m1"
    ensures !Like("%" + term + "%", SqlLower(col))
  {
    assert NoWildcards(term);
    LikeContains(term, low);
    if low == "\U{C9}cran" {
      assert !FoldEqChar(term[0], low[0]);
      assert !FoldMatchAt(low, term, 0);
    }
  }
}

=== FILE: seqs.dfy ===
/** Order-preserving selection from a sequence: the shape of a `SELECT ... WHERE`
    over a table read in rowid order. */
module Seqs {

  function Filter<T(!new)>(s: seq<T>, keep: T -> bool): (r: seq<T>)
    ensures |r| <= |s|
    ensures forall x :: x in r <==> x in s && keep(x)
  {
    if |s| == 0 then []
    else
      (if keep(s[0]) then [s[0]] else []) + Filter(s[1..], keep)
  }

  /** Selecting from a concatenation selects from each part, in order. */
  lemma {:induction false} FilterAppend<T(!new)>(a: seq<T>, b: seq<T>, keep: T -> bool)
    ensures Filter(a + b, keep) == Filter(a, keep) + Filter(b, keep)
  {
    if |a| == 0 {
      assert a + b == b;
    } else {
      var head := if keep(a[0]) then [a[0]] else [];
      assert (a + b)[0] == a[0] && (a + b)[1..] == a[1..] + b;
      assert Filter(a + b, keep) == head + Filter(a[1..] + b, keep);
      FilterAppend(a[1..], b, keep);
      assert Filter(a, keep) == head + Filter(a[1..], keep);
    }
  }

  /** Selection keeps every occurrence of a kept element and none of the others. */
  lemma {:induction false} FilterCounts<T(!new)>(s: seq<T>, keep: T -> bool)
    ensures forall x :: multiset(Filter(s, keep))[x] == if keep(x) then multiset(s)[x] else 0
  {
    if |s| > 0 {
      FilterCounts(s[1..], keep);
      assert s == [s[0]] + s[1..];
    }
  }

  /** Selection keeps everything exactly when every element is kept. */
  lemma {:induction false} FilterKeepsAll<T(!new)>(s: seq<T>, keep: T -> bool)
    requires forall i :: 0 <= i < |s| ==> keep(s[i])
    ensures Filter(s, keep) == s
  {
    if |s| > 0 {
      FilterKeepsAll(s[1..], keep);
    }
  }

  /** Two tests that agree on every element select the same subsequence. */
  lemma {:induction false} FilterCongruent<T(!new)>(s: seq<T>, f: T -> bool, g: T -> bool)
    requires forall i :: 0 <= i < |s| ==> f(s[i]) == g(s[i])
    ensures Filter(s, f) == Filter(s, g)
  {
    if |s| > 0 {
      FilterCongruent(s[1..], f, g);
    }
  }
}

=== FILE: sql_text.dfy ===
/** Case folding and pattern matching as the search uses them: Python's
    `str.lower()` on the search term, SQLite's `LOWER()` on the columns and
    SQLite's `LIKE` operator without an `ESCAPE` clause. */
module SqlText {

  // ---------------------------------------------------------------------
  // Case folding.
  // ---------------------------------------------------------------------

  predicate IsAsciiUpper(c: char) {
    'A' <= c <= 'Z'
  }

  /** Latin-1 capitals `À`..`Þ` except the multiplication sign `×`. */
  predicate IsLatin1Upper(c: char) {
    '\U{C0}' <= c <= '\U{DE}' && c != '\U{D7}'
  }

  /** Python's `str.lower()` on one character, for ASCII and Latin-1 letters. */
  function PyLowerChar(c: char): (r: char)
    ensures !IsAsciiUpper(r)
    ensures !IsAsciiUpper(c) && !IsLatin1Upper(c) ==> r == c
    ensures IsAsciiUpper(c) ==> 'a' <= r <= 'z' && r as int - 'a' as int == c as int - 'A' as int
    ensures IsLatin1Upper(c) ==> r as int == c as int + 32
  {
    if IsAsciiUpper(c) || IsLatin1Upper(c) then (c as int + 32) as char else c
  }

  /** SQLite's built-in `LOWER()` on one character: only ASCII letters are folded. */
  function SqlLowerChar(c: char): (r: char)
    ensures !IsAsciiUpper(r)
    ensures !IsAsciiUpper(c) ==> r == c
    ensures IsAsciiUpper(c) ==> 'a' <= r <= 'z' && r as int - 'a' as int == c as int - 'A' as int
  {
    if IsAsciiUpper(c) then (c as int + 32) as char else c
  }

  function PyLower(s: string): (r: string)
    ensures |r| == |s| && forall i :: 0 <= i < |s| ==> r[i] == PyLowerChar(s[i])
  {
    seq(|s|, i requires 0 <= i < |s| => PyLowerChar(s[i]))
  }

  function SqlLower(s: string): (r: string)
    ensures |r| == |s| && forall i :: 0 <= i < |s| ==> r[i] == SqlLowerChar(s[i])
  {
    seq(|s|, i requires 0 <= i < |s| => SqlLowerChar(s[i]))
  }

  /** `LIKE`'s comparison of two ordinary characters: equal up to ASCII case. */
  predicate FoldEqChar(a: char, b: char) {
    SqlLowerChar(a) == SqlLowerChar(b)
  }

  // ---------------------------------------------------------------------
  // Text length in bytes.
  // ---------------------------------------------------------------------

  /** The bytes one character takes in UTF-8, the encoding `sqlite3` binds
      a Python string in. */
  function Utf8CharLength(c: char): (n: nat)
    ensures 1 <= n <= 4
    ensures n == 1 <==> c < '\U{80}'
  {
    if c < '\U{80}' then 1
    else if c < '\U{800}' then 2
    else if c < '\U{10000}' then 3
    else 4
  }

  /** The length of a text in UTF-8 bytes: one byte per character exactly
      when the text is ASCII, and never more than four per character. */
  function Utf8Length(s: string): (r: nat)
    ensures |s| <= r <= 4 * |s|
    ensures r == |s| <==> forall i :: 0 <= i < |s| ==> s[i] < '\U{80}'
  {
    if s == [] then 0
    else
      var rest := Utf8Length(s[1..]);
      assert forall i :: 1 <= i < |s| ==> s[i] == s[1..][i - 1];
      Utf8CharLength(s[0]) + rest
  }

  lemma {:induction false} Utf8LengthConcat(a: string, b: string)
    ensures Utf8Length(a + b) == Utf8Length(a) + Utf8Length(b)
    decreases |a|
  {
    if a == [] {
      assert a + b == b;
    } else {
      assert (a + b)[0] == a[0] && (a + b)[1..] == a[1..] + b;
      Utf8LengthConcat(a[1..], b);
    }
  }

  /** SQLite's default `SQLITE_MAX_LIKE_PATTERN_LENGTH`: `LIKE` with a longer
      pattern, counted in bytes, fails with "LIKE or GLOB pattern too complex". */
  const MaxLikePatternLength := 50000

  // ---------------------------------------------------------------------
  // LIKE.
  // ---------------------------------------------------------------------

  /** `text LIKE pattern`: `%` matches any run of characters, `_` exactly one,
      and every other pattern character matches itself up to ASCII case. */
  predicate Like(pattern: string, text: string)
    ensures NoWildcards(pattern) ==> (Like(pattern, text) <==> FoldEq(pattern, text))
    decreases |pattern| + |text|
  {
    if |pattern| == 0 then |text| == 0
    else if pattern[0] == '%' then Like(pattern[1..], text) || (|text| > 0 && Like(pattern, text[1..]))
    else
      FoldEqStep(pattern, text);
      |text| > 0 && (pattern[0] == '_' || FoldEqChar(pattern[0], text[0])) && Like(pattern[1..], text[1..])
  }

  predicate NoWildcards(p: string) {
    forall i :: 0 <= i < |p| ==> p[i] != '%' && p[i] != '_'
  }

  /** `p` and `t` have the same length and agree character by character up to ASCII case. */
  predicate FoldEq(p: string, t: string) {
    |p| == |t| && forall i :: 0 <= i < |p| ==> FoldEqChar(p[i], t[i])
  }

  /** `FoldEq` one character at a time, for texts of any length. */
  lemma FoldEqStep(p: string, t: string)
    requires |p| > 0
    ensures FoldEq(p, t) <==> |t| > 0 && FoldEqChar(p[0], t[0]) && FoldEq(p[1..], t[1..])
  {
    if |p| == |t| {
      FoldEqCons(p, t);
    }
  }

  lemma FoldEqCons(p: string, t: string)
    requires |p| > 0 && |p| == |t|
    ensures FoldEq(p, t) <==> FoldEqChar(p[0], t[0]) && FoldEq(p[1..], t[1..])
  {
    if FoldEqChar(p[0], t[0]) && FoldEq(p[1..], t[1..]) {
      forall i | 1 <= i < |p|
        ensures FoldEqChar(p[i], t[i])
      {
        assert p[1..][i - 1] == p[i] && t[1..][i - 1] == t[i];
      }
    }
  }

  /** The window of `t` at `i` agrees with `p` up to ASCII case. */
  predicate FoldMatchAt(t: string, p: string, i: int) {
    0 <= i <= |t| - |p| && FoldEq(p, t[i..i + |p|])
  }

  /** The window of `t` at `i` is `p`. */
  predicate MatchAt(t: string, p: string, i: int) {
    0 <= i <= |t| - |p| && t[i..i + |p|] == p
  }

  /** Some window of `t` agrees with `p` up to ASCII case. */
  predicate FoldContains(t: string, p: string) {
    exists i :: 0 <= i <= |t| - |p| && FoldMatchAt(t, p, i)
  }

  /** Plain substring containment. */
  predicate Contains(t: string, p: string) {
    exists i :: 0 <= i <= |t| - |p| && MatchAt(t, p, i)
  }

  lemma {:induction false} LikeAnything(t: string)
    ensures Like("%", t)
  {
    if |t| > 0 {
      LikeAnything(t[1..]);
    }
  }

  /** A pattern without wildcards followed by `%` matches exactly the texts it is a prefix of. */
  lemma {:induction false} LikePrefix(p: string, t: string)
    requires NoWildcards(p)
    ensures Like(p + "%", t) <==> |p| <= |t| && FoldEq(p, t[..|p|])
  {
    if |p| == 0 {
      assert p + "%" == "%";
      LikeAnything(t);
    } else {
      assert (p + "%")[0] == p[0] && (p + "%")[1..] == p[1..] + "%";
      if |t| > 0 {
        LikePrefix(p[1..], t[1..]);
        if |p| <= |t| {
          assert t[1..][..|p| - 1] == t[..|p|][1..];
          FoldEqCons(p, t[..|p|]);
        }
      }
    }
  }

  /** A leading `%` lets the rest of the pattern match any suffix. */
  lemma {:induction false} LikeLeadingPercent(q: string, t: string)
    ensures Like("%" + q, t) <==> exists i :: 0 <= i <= |t| && Like(q, t[i..])
  {
    var p := "%" + q;
    assert p[0] == '%' && p[1..] == q;
    assert t[0..] == t;
    if |t| > 0 {
      LikeLeadingPercent(q, t[1..]);
      if exists i :: 0 <= i <= |t| && Like(q, t[i..]) {
        var i :| 0 <= i <= |t| && Like(q, t[i..]);
        if i > 0 {
          assert t[1..][i - 1..] == t[i..];
        }
      }
      if exists i :: 0 <= i <= |t[1..]| && Like(q, t[1..][i..]) {
        var i :| 0 <= i <= |t[1..]| && Like(q, t[1..][i..]);
        assert t[1..][i..] == t[i + 1..];
      }
    }
  }

  /** `t LIKE '%' || p || '%'` is a case-insensitive substring test when `p` has no wildcards. */
  lemma LikeContains(p: string, t: string)
    requires NoWildcards(p)
    ensures Like("%" + p + "%", t) <==> FoldContains(t, p)
  {
    assert "%" + p + "%" == "%" + (p + "%");
    LikeLeadingPercent(p + "%", t);
    if Like("%" + p + "%", t) {
      var i :| 0 <= i <= |t| && Like(p + "%", t[i..]);
      LikePrefix(p, t[i..]);
      assert t[i..][..|p|] == t[i..i + |p|];
      assert FoldMatchAt(t, p, i);
    }
    if FoldContains(t, p) {
      var i :| 0 <= i <= |t| - |p| && FoldMatchAt(t, p, i);
      LikePrefix(p, t[i..]);
      assert t[i..][..|p|] == t[i..i + |p|];
      assert Like(p + "%", t[i..]);
    }
  }

  /** `%` and `_` in the pattern are not escaped: `_` matches any single character. */
  lemma UnderscoreMatchesAnyCharacter()
    ensures Like("%_%", "pc-01")
    ensures !Contains("pc-01", "_")
  {
    assert Like("%", "c-01") by { LikeAnything("c-01"); }
    assert "%_%"[1..] == "_%" && "_%"[1..] == "%" && "pc-01"[1..] == "c-01";
    assert Like("_%", "pc-01");
    forall i | 0 <= i <= 4
      ensures !MatchAt("pc-01", "_", i)
    {
      assert "pc-01"[i..i + 1][0] == "pc-01"[i];
    }
  }
}

=== FILE: store.dfy ===
/** The two tables of `equipamentos.db` and the statements the views run on
    them, as values: a database in, a database (or an error) out. */
module Store {
  import opened Wrappers
  import opened Seqs

  /** A row of `equipamentos`. The two note columns are added by the migration
      and never written by the application, so new rows hold SQL `NULL` there. */
  datatype Equipment = Equipment(
    id: nat,
    patrimonio: string,
    nome: string,
    modelo: string,
    marca: string,
    fabricante: string,
    numeroSerie: string,
    historicoDetalhado: Option<string>,
    observacoes: Option<string>)

  /** A row of `historico`. */
  datatype HistoryEntry = HistoryEntry(
    id: nat,
    equipamentoId: nat,
    data: string,
    tipoServico: string,
    responsavelExecucao: string,
    responsavelAnalise: string,
    proximaManutencao: string,
    localUso: string,
    historicoDetalhado: string,
    observacoes: string)

  /** Both tables in rowid order, which is insertion order since nothing is
      ever deleted, and the largest id each `AUTOINCREMENT` column has handed
      out (the `sqlite_sequence` table). */
  datatype Database = Database(
    equipment: seq<Equipment>,
    history: seq<HistoryEntry>,
    equipmentSeq: nat,
    historySeq: nat)

  const EmptyDatabase := Database([], [], 0, 0)

  /** The range of SQLite's `INTEGER`: a signed 64-bit value. */
  const MinInteger: int := -0x8000_0000_0000_0000
  const MaxInteger: int := 0x7FFF_FFFF_FFFF_FFFF

  /** A Python `int` that `sqlite3` can bind as a statement parameter. */
  predicate Bindable(n: int) {
    MinInteger <= n <= MaxInteger
  }

  /** What a statement raises: the `sqlite3.IntegrityError` of a violated
      `UNIQUE` constraint, the `OverflowError` of binding an `int` that does
      not fit in 64 bits (raised before the statement runs), or the
      `sqlite3.OperationalError` of a `LIKE` pattern over SQLite's length limit. */
  datatype StoreError = UniqueViolation(column: string) | IntegerOverflow | PatternTooComplex

  /** What SQLite guarantees of the tables: ids increase along rowid order
      and never exceed the sequence counter, and asset tags are unique. */
  predicate WellFormed(db: Database) {
    && (forall i, j :: 0 <= i < j < |db.equipment| ==> db.equipment[i].id < db.equipment[j].id)
    && (forall i :: 0 <= i < |db.equipment| ==> 1 <= db.equipment[i].id <= db.equipmentSeq)
    && (forall i, j :: 0 <= i < j < |db.equipment| ==> db.equipment[i].patrimonio != db.equipment[j].patrimonio)
    && (forall i, j :: 0 <= i < j < |db.history| ==> db.history[i].id < db.history[j].id)
    && (forall i :: 0 <= i < |db.history| ==> 1 <= db.history[i].id <= db.historySeq)
  }

  /** Every history entry names an equipment row that exists. SQLite does not
      enforce the foreign key; the views keep it by checking the id first. */
  predicate NoOrphans(db: Database) {
    forall i :: 0 <= i < |db.history| ==>
      exists j :: 0 <= j < |db.equipment| && db.equipment[j].id == db.history[i].equipamentoId
  }

  /** The empty file `init_db` leaves behind is consistent. */
  lemma EmptyDatabaseConsistent()
    ensures WellFormed(EmptyDatabase) && NoOrphans(EmptyDatabase)
    ensures forall id :: EntriesFor(EmptyDatabase.history, id) == []
  {
  }

  predicate TagInUse(rows: seq<Equipment>, tag: string) {
    exists i :: 0 <= i < |rows| && rows[i].patrimonio == tag
  }

  /** The columns `cadastrar_equipamento` inserts. */
  datatype NewEquipment = NewEquipment(
    patrimonio: string,
    nome: string,
    modelo: string,
    marca: string,
    fabricante: string,
    numeroSerie: string)

  /** The row stored for `fields`, carrying the given id and `NULL` notes. */
  predicate StoredAs(row: Equipment, id: nat, fields: NewEquipment) {
    row == Equipment(id, fields.patrimonio, fields.nome, fields.modelo, fields.marca,
                     fields.fabricante, fields.numeroSerie, None, None)
  }

  /** `INSERT INTO equipamentos (...) VALUES (...)`: refused when the tag is
      taken, otherwise one row with the next `AUTOINCREMENT` id is appended. */
  function InsertEquipment(db: Database, fields: NewEquipment): (r: Result<Database, StoreError>)
    ensures r.Failure? <==> TagInUse(db.equipment, fields.patrimonio)
    ensures r.Failure? ==> r.error == UniqueViolation("equipamentos.patrimonio")
    ensures r.Success? ==>
      && |r.value.equipment| == |db.equipment| + 1
      && r.value.equipment[..|db.equipment|] == db.equipment
      && StoredAs(r.value.equipment[|db.equipment|], r.value.equipmentSeq, fields)
      && r.value.equipmentSeq > db.equipmentSeq
      && r.value.history == db.history
      && r.value.historySeq == db.historySeq
  {
    if TagInUse(db.equipment, fields.patrimonio) then
      Failure(UniqueViolation("equipamentos.patrimonio"))
    else
      var id := db.equipmentSeq + 1;
      var row := Equipment(id, fields.patrimonio, fields.nome, fields.modelo, fields.marca,
                           fields.fabricante, fields.numeroSerie, None, None);
      Success(db.(equipment := db.equipment + [row], equipmentSeq := id))
  }

  /** A successful insert keeps the table invariants, and the new row's id is
      larger than every id already in the table. */
  lemma InsertEquipmentKeepsInvariant(db: Database, fields: NewEquipment)
    requires WellFormed(db)
    requires InsertEquipment(db, fields).Success?
    ensures WellFormed(InsertEquipment(db, fields).value)
    ensures forall e :: e in db.equipment ==>
              e.id < InsertEquipment(db, fields).value.equipment[|db.equipment|].id
  {
    var after := InsertEquipment(db, fields).value;
    var n := |db.equipment|;
    forall i, j | 0 <= i < j < |after.equipment|
      ensures after.equipment[i].patrimonio != after.equipment[j].patrimonio
    {
      if j == n {
        assert after.equipment[i] == db.equipment[i];
        assert !(db.equipment[i].patrimonio == fields.patrimonio);
      } else {
        assert after.equipment[i] == db.equipment[i] && after.equipment[j] == db.equipment[j];
      }
    }
  }

  /** `SELECT ... FROM equipamentos WHERE id = ?` followed by `fetchone()`. */
  function FindEquipment(rows: seq<Equipment>, id: nat): (r: Option<Equipment>)
    ensures r.Some? ==> r.value in rows && r.value.id == id
    ensures r.None? <==> forall e :: e in rows ==> e.id != id
  {
    if |rows| == 0 then None
    else if rows[0].id == id then Some(rows[0])
    else FindEquipment(rows[1..], id)
  }

  /** Ids are unique, so the row found for an id is the only one carrying it. */
  lemma FindEquipmentUnique(db: Database, id: nat, e: Equipment)
    requires WellFormed(db) && e in db.equipment && e.id == id
    ensures FindEquipment(db.equipment, id) == Some(e)
  {
    var f := FindEquipment(db.equipment, id).value;
    var i :| 0 <= i < |db.equipment| && db.equipment[i] == e;
    var j :| 0 <= j < |db.equipment| && db.equipment[j] == f;
    assert !(i < j) && !(j < i);
  }

  /** The columns `adicionar_historico` inserts. */
  datatype NewHistory = NewHistory(
    equipamentoId: nat,
    data: string,
    tipoServico: string,
    responsavelExecucao: string,
    responsavelAnalise: string,
    proximaManutencao: string,
    localUso: string,
    historicoDetalhado: string,
    observacoes: string)

  predicate RecordedAs(entry: HistoryEntry, id: nat, fields: NewHistory) {
    entry == HistoryEntry(id, fields.equipamentoId, fields.data, fields.tipoServico,
                          fields.responsavelExecucao, fields.responsavelAnalise,
                          fields.proximaManutencao, fields.localUso,
                          fields.historicoDetalhado, fields.observacoes)
  }

  /** `INSERT INTO historico (...) VALUES (...)`: the table has no unique column
      and SQLite does not enforce the foreign key, so the insert always succeeds. */
  function InsertHistory(db: Database, fields: NewHistory): (r: Database)
    ensures |r.history| == |db.history| + 1
    ensures r.history[..|db.history|] == db.history
    ensures RecordedAs(r.history[|db.history|], r.historySeq, fields)
    ensures r.historySeq > db.historySeq
    ensures r.equipment == db.equipment && r.equipmentSeq == db.equipmentSeq
  {
    var id := db.historySeq + 1;
    var entry := HistoryEntry(id, fields.equipamentoId, fields.data, fields.tipoServico,
                              fields.responsavelExecucao, fields.responsavelAnalise,
                              fields.proximaManutencao, fields.localUso,
                              fields.historicoDetalhado, fields.observacoes);
    db.(history := db.history + [entry], historySeq := id)
  }

  lemma InsertHistoryKeepsInvariant(db: Database, fields: NewHistory)
    requires WellFormed(db)
    ensures WellFormed(InsertHistory(db, fields))
  {
    var after := InsertHistory(db, fields);
    assert forall i :: 0 <= i < |db.history| ==> after.history[i] == db.history[i];
  }

  /** Appending equipment never leaves an entry without its equipment. */
  lemma InsertEquipmentKeepsNoOrphans(db: Database, fields: NewEquipment)
    requires NoOrphans(db)
    requires InsertEquipment(db, fields).Success?
    ensures NoOrphans(InsertEquipment(db, fields).value)
  {
    var r := InsertEquipment(db, fields).value;
    forall i | 0 <= i < |r.history|
      ensures exists j :: 0 <= j < |r.equipment| && r.equipment[j].id == r.history[i].equipamentoId
    {
      var j :| 0 <= j < |db.equipment| && db.equipment[j].id == db.history[i].equipamentoId;
      assert r.equipment[j] == db.equipment[j];
    }
  }

  /** An entry for existing equipment keeps every entry attached to its equipment. */
  lemma InsertHistoryKeepsNoOrphans(db: Database, fields: NewHistory)
    requires NoOrphans(db)
    requires exists e :: e in db.equipment && e.id == fields.equipamentoId
    ensures NoOrphans(InsertHistory(db, fields))
  {
    var r := InsertHistory(db, fields);
    var e :| e in db.equipment && e.id == fields.equipamentoId;
    var k :| 0 <= k < |db.equipment| && db.equipment[k] == e;
    forall i | 0 <= i < |r.history|
      ensures exists j :: 0 <= j < |r.equipment| && r.equipment[j].id == r.history[i].equipamentoId
    {
      if i < |db.history| {
        assert r.history[i] == db.history[i];
      } else {
        assert r.equipment[k].id == r.history[i].equipamentoId;
      }
    }
  }

  /** `SELECT * FROM historico WHERE equipamento_id = ?`. */
  function EntriesFor(history: seq<HistoryEntry>, equipId: nat): (r: seq<HistoryEntry>)
    ensures forall e :: e in r <==> e in history && e.equipamentoId == equipId
  {
    Filter(history, (e: HistoryEntry) => e.equipamentoId == equipId)
  }

  /** An equipment has no history exactly when no entry names it. */
  lemma EntriesForEmpty(history: seq<HistoryEntry>, equipId: nat)
    ensures EntriesFor(history, equipId) == [] <==> forall h :: h in history ==> h.equipamentoId != equipId
  {
    var r := EntriesFor(history, equipId);
    if r != [] {
      assert r[0] in r;
    }
  }

  /** No history entry names an id the counter has not handed out yet. */
  lemma NoEntriesForFreshId(db: Database, equipId: nat)
    requires WellFormed(db) && NoOrphans(db)
    requires equipId > db.equipmentSeq
    ensures EntriesFor(db.history, equipId) == []
  {
    forall h | h in db.history
      ensures h.equipamentoId != equipId
    {
      var i :| 0 <= i < |db.history| && db.history[i] == h;
      var j :| 0 <= j < |db.equipment| && db.equipment[j].id == h.equipamentoId;
    }
    EntriesForEmpty(db.history, equipId);
  }

  /** Each entry of the equipment appears as often as it is stored, in storage
      order, and a new entry is seen last. */
  lemma EntriesForAppend(history: seq<HistoryEntry>, entry: HistoryEntry, equipId: nat)
    ensures EntriesFor(history + [entry], equipId) ==
            EntriesFor(history, equipId) + (if entry.equipamentoId == equipId then [entry] else [])
  {
    FilterAppend(history, [entry], (e: HistoryEntry) => e.equipamentoId == equipId);
  }

  /** An entry for one equipment leaves every other equipment's entries as they were. */
  lemma InsertHistoryOtherEntries(db: Database, fields: NewHistory, other: nat)
    requires fields.equipamentoId != other
    ensures EntriesFor(InsertHistory(db, fields).history, other) == EntriesFor(db.history, other)
  {
    var after := InsertHistory(db, fields);
    var entry := after.history[|db.history|];
    assert after.history == db.history + [entry];
    EntriesForAppend(db.history, entry, other);
  }

  lemma EntriesForCounts(history: seq<HistoryEntry>, equipId: nat)
    ensures forall e :: multiset(EntriesFor(history, equipId))[e] ==
                        if e.equipamentoId == equipId then multiset(history)[e] else 0
  {
    FilterCounts(history, (e: HistoryEntry) => e.equipamentoId == equipId);
  }
}

=== FILE: wrappers.dfy ===
/** The optional value and the outcome-or-error types shared by the whole model. */
module Wrappers {

  /** A value that may be missing: Python's `None` versus a present value. */
  datatype Option<T> = None | Some(value: T) {

    /** The wrapped value, or `default` when there is none (`dict.get(key, default)`). */
    function GetOr(default: T): T {
      match this
      case Some(v) => v
      case None => default
    }
  }

  /** The outcome of a store operation that can raise. */
  datatype Result<T, E> = Success(value: T) | Failure(error: E)
}
